=== FILE: README.md ===
# Gmail access layer of the mail dashboard

This project models the server side of a small Gmail client. The model covers:

- `GmailService`, which holds one OAuth bearer token, a per-message cache and a one-slot cache of the last inbox listing. Both caches expire after 60 000 ms. It lists, reads, decodes and relabels messages through the Gmail REST API.
- The OAuth callback route. It exchanges the authorization code for tokens and redirects the browser with token cookies or with an error code.
- The `/api/emails` route. GET lists the inbox and POST marks a message read or important.
- The middleware that sends visitors without a session to the sign-in page, together with its path matcher.

The service is modelled as pure transitions over an immutable `Service` value.

- Each operation takes the current time `now` (in ms) and a `Net` record with the provider's answers.
- It returns the new state, the result or the message of the error it throws, and the list of requests it issued. So "no request is made" reads as `calls == []`.
- A missing token and an empty token are both "no token" (`Truthy`), as in the JavaScript truthiness the source relies on.

Modules:

- `Base`: `Option` and `Result`, plus JavaScript truthiness.
- `Text`: ASCII lower-casing, decimal rendering and `parseInt`.
- `Addresses`: the e-mail address regular expression, as a leftmost, greedy scanner.
- `Messages`: the provider's message records.
- `Decoder`: header maps, the summary and body decoding.
- `Remote`: requests, replies and `fetchWithAuth` with its error messages.
- `Gmail`: the service.
- `GmailProperties`: lemmas relating several operations.
- `EmailsRoute`, `AuthCallback` and `Middleware`: the adapters.

## Model

| member | source | states |
|---|---|---|
| Gmail.SetAccessToken | app/services/gmail.ts:21-26 | the new token is held; a different token empties both caches; the token already held leaves the service unchanged |
| Gmail.ClearCache | app/services/gmail.ts:28-32 | both caches are empty and the token is kept |
| Gmail.IsCacheValid | app/services/gmail.ts:34-36 | an entry stamped at t is usable exactly before t plus 60000 ms |
| GmailProperties.SameTokenKeepsCache | app/services/gmail.ts:21-26 | setting the same token twice is the same as setting it once |
| GmailProperties.NewTokenClearsCache | app/services/gmail.ts:21-32 | after switching to another token nothing cached under the first one survives |
| Remote.FetchWithAuth | app/services/gmail.ts:38-100 | without a token, throws "No access token" before any request; otherwise issues exactly the one request; succeeds exactly when the reply is 2xx with a JSON body; non-ok replies throw the classified message and network failures propagate |
| Remote.Classify | app/services/gmail.ts:59-92 | 403 and only 403 is forbidden, carrying the first min(200, length) characters of the body; 429 and only 429 is rate limiting; every other status keeps its status and status text |
| Remote.ErrorMessage | app/services/gmail.ts:79-91 | the thrown message reads back to the failure class of the response; it starts with the forbidden prefix iff the status is 403 and is the rate-limit text iff it is 429 |
| Remote.RecognizeRender | app/services/gmail.ts:69-91 | every thrown message can be read back into its failure class, and an HTTP error message into its status and status text |
| Remote.ErrorMessagesDistinguish | app/services/gmail.ts:69-91 | two failed responses with the same error message are in the same class, and outside 403/429 they have the same status and status text |
| Gmail.GetEmail | app/services/gmail.ts:149-176 | a fresh cache entry is returned with no request; otherwise one message request is made when a token is held; success iff token and ok reply; the parsed-header message is cached under the id stamped now; a failure throws exactly the request's error message and leaves the state unchanged |
| GmailProperties.SecondReadHitsCache | app/services/gmail.ts:149-176 | a message read again within the expiry is served from the cache with no request and the same value |
| Gmail.CollectFrom | app/services/gmail.ts:126-135 | the gathered reads fail iff one of them fails, with the error of the first failure in list order; otherwise every value, in order |
| Gmail.ListedRead | app/services/gmail.ts:127-133 | a listed message succeeds iff its `getEmail` read does, and then holds that message with its headers parsed again |
| Gmail.StoreFetched | app/services/gmail.ts:126-135 | no cache entry is lost; every new or changed entry is a listed id that was fetched, holding the fetched message stamped now |
| Gmail.ReadListed | app/services/gmail.ts:126-141 | the token is kept and the fetched messages are cached; an error is that of the first failing read, every earlier read having succeeded, and leaves the list slot as it was; success stores the listing stamped now, entry i being id i's read; with a token the requests are exactly MissedReads |
| Gmail.MissedReads | app/services/gmail.ts:126-129 | the per-message requests of a listing: a message request for an id exactly when it is listed and has no fresh cache entry, at most one per listed id |
| Gmail.ReadCallsMissed | app/services/gmail.ts:126-129 | reads that each request their message exactly on a cache miss with a token make, together, the requests MissedReads names, and none without a token |
| Gmail.ListingCalls | app/services/gmail.ts:126-129 | with a token the listing's reads request exactly the ids MissedReads names; without one they request nothing |
| Gmail.ListEmails | app/services/gmail.ts:102-147 | a fresh listing is returned whatever the arguments; no token throws with no request; a failed listing request throws exactly its error message; a listing without a messages array is the invalid-format error; a failed or malformed listing makes no request after the listing request; the first request is the 50-item listing, followed by exactly one message request per listed id without a fresh cache entry, in list order; a read failure gives the first failing listed read's error; on success the slot holds the listing stamped now, entry i being id i's read; cache entries are only added, each one a successful fetch of a listed id |
| GmailProperties.SecondListingHitsCache | app/services/gmail.ts:102-147 | a second listing within the expiry returns the first one with no request, whatever page, page size or cache flag is passed |
| GmailProperties.ListingFillsMessageCache | app/services/gmail.ts:126-141 | after a listing fetched from the provider, reading any listed message whose own read succeeded issues no request, even when another listed read failed |
| Decoder.HeaderValues | app/services/gmail.ts:182-194 | From and To values become exactly the list of address matches in the value; any other header keeps its value as a one-element list |
| Decoder.AddressHeaderKept | app/services/gmail.ts:189-191 | a From or To value that is exactly one address is kept as that one address |
| Decoder.ParseHeaders | app/services/gmail.ts:178-198 | the keys are exactly the lower-cased header names present, and a key's entry is the values of its last header: later duplicates overwrite earlier ones |
| Decoder.OverwriteKeys | app/services/gmail.ts:181-195 | overwriting entries in order keeps exactly the keys that occur |
| Decoder.OverwriteLastWins | app/services/gmail.ts:181-195 | overwriting entries in order leaves each key with the value of its last entry |
| Decoder.ParseHeadersIsLastOccurrence | app/services/gmail.ts:178-198 | a key is present iff some header has that name, and its values are those of the last such header |
| Addresses.MatchAt | app/services/gmail.ts:190 | every match ends within the value and is a local part, '@', a domain, '.', and two or more letters |
| Addresses.ExtractAddresses | app/services/gmail.ts:190 | every extracted string is an address of that shape |
| Addresses.ScanWithoutAt | app/services/gmail.ts:190 | a value without '@' yields no addresses |
| Addresses.AddressFound | app/services/gmail.ts:190 | extraction is complete on addresses: a value that is exactly an address yields that address and nothing else |
| Addresses.DisplayNameDropped | app/services/gmail.ts:189-191 | a header value `name <address>` whose display name has no '@' yields exactly the bracketed address |
| Text.ToLower | app/services/gmail.ts:182 | lower-casing keeps the length and leaves no upper-case letter |
| Text.ToLowerIdempotent | app/services/gmail.ts:182 | lower-casing twice is lower-casing once |
| Gmail.Mutate | app/services/gmail.ts:202-223 | one request when a token is held; success iff token and ok reply; on success only that message's entry and the listing are dropped; on failure nothing changes |
| Gmail.ToggleImportant | app/services/gmail.ts:200-224 | one modify request adding IMPORTANT (or removing it) when a token is held; on success only that message's entry and the listing are dropped; on failure nothing changes |
| Gmail.DeleteEmail | app/services/gmail.ts:226-243 | one trash request when a token is held; on success only that message's entry and the listing are dropped; on failure nothing changes |
| Gmail.ToggleRead | app/services/gmail.ts:307-331 | one modify request removing UNREAD (or adding it) when a token is held; the same invalidation as the other mutations |
| GmailProperties.MutationForcesRefetch | app/services/gmail.ts:216-219 | after a successful label change the next read of that message is a request, while other messages stay cached as before |
| GmailProperties.LabelChangesComplementary | app/services/gmail.ts:210-211 | add and remove lists never share a label, and the two settings of a flag swap them |
| Gmail.GetEmailContent | app/services/gmail.ts:245-265 | never throws and never returns an empty text; a fresh entry is decoded with no request; otherwise one full-message request is made; success caches the raw message stamped now; any failure gives the fixed error text |
| GmailProperties.ContentEntryLacksHeaders | app/services/gmail.ts:253-258 | a message read served from an entry stored by a body read has no parsed headers, although a fetched read always has them |
| Decoder.FirstValue | app/services/gmail.ts:274-277 | finds the value of the first header whose lower-cased name is the key, and nothing when there is none |
| Decoder.ParseEmailHeaders | app/services/gmail.ts:271-279 | subject, from and to are the first matching header's non-empty value or their fallbacks, never empty; the date falls back to the internal date |
| Decoder.SummaryFirstMapLast | app/services/gmail.ts:271-279 | with duplicate subject headers the summary takes the first and the header map the last |
| Decoder.ToStandardBase64 | app/services/gmail.ts:303 | the translated text has the same length, no '-' or '_', and every other character in place |
| Decoder.Base64UrlRoundTrip | app/services/gmail.ts:302-305 | translating standard base64 to the URL alphabet and back returns it unchanged |
| Decoder.BodySource | app/services/gmail.ts:285-297 | inline body data wins; otherwise the first text/plain or text/html part's data, with no fall-back to later parts; the chosen data is never empty |
| Decoder.DecodeMessageBody | app/services/gmail.ts:281-300 | no payload or no body data gives the empty-body placeholder; the decoded text replaces an empty result with the placeholder; a decoding failure is propagated |
| Decoder.InlineBodyRoundTrip | app/services/gmail.ts:281-305 | a non-empty text the provider encoded in standard base64 and sent in the URL alphabet decodes back to that text, whenever the library decoding inverts the standard encoding |
| Gmail.ValidateToken | app/services/gmail.ts:333-371 | valid iff a token is held, the profile and the one-item listing succeed and, when the mailbox is not empty, the first message's request succeeds; the requests are exactly the profile, then the listing if the profile succeeded, then the first message if the listing succeeded with an id |
| Text.NatToString | app/services/gmail.ts:91 | a non-empty digit string with no leading zero except for 0 itself |
| Text.DecimalRoundTrip | app/services/gmail.ts:91 | reading back a rendered status code gives the status code |
| Text.ParseInt | app/api/emails/route.ts:44-45 | NaN exactly when, after leading white space and an optional sign, no digit follows; a negative result needs a minus sign |
| Text.ReadUnsigned | app/api/emails/route.ts:44-45 | no number exactly when the text does not start with a digit |
| Text.ReadSigned | app/api/emails/route.ts:44-45 | NaN exactly when, after an optional sign, no digit follows |
| Text.ReadUnsignedDecimal | app/api/emails/route.ts:44-45 | the decimal text of a number reads back as that number |
| Text.ParseIntRoundTrip | app/api/emails/route.ts:44-45 | parseInt of a rendered number, with or without a minus sign, is that number |
| EmailsRoute.ListArguments | app/api/emails/route.ts:43-46 | a missing or empty page defaults to "1" and page size to "20"; the cache is skipped only for the exact text "false" |
| EmailsRoute.EmailsGet | app/api/emails/route.ts:6-63 | no token is 401 with no request and no state change; a token failing validation is 403 with only the probe's requests; otherwise the requests are the probe's followed by the listing's, and the listing's emails are 200 and its error message is 500; a thrown session lookup is 500 with its message |
| EmailsRoute.Finish | app/api/emails/route.ts:87-110 | a successful mutation answers 200 with success, a failed one 500 "Failed to modify email" |
| EmailsRoute.EmailsPost | app/api/emails/route.ts:65-111 | no token is 401; a missing field is 400 before the service is touched; markAsRead sends exactly a remove-UNREAD request and markAsImportant exactly an add-IMPORTANT one; any other action is 400 after the token is set; thrown errors are 500 |
| EmailsRoute.UnknownActionAfterTokenSwitch | app/api/emails/route.ts:84-100 | an unknown action with a new token is refused only after the caches have been emptied |
| AuthCallback.RejectionCode | app/api/auth/callback/route.ts:38-49 | the refusal's error field selects invalid_grant or invalid_client; anything else is auth_failed |
| AuthCallback.Callback | app/api/auth/callback/route.ts:1-83 | every outcome redirects to the dashboard or to the sign-in page with a known error code; cookies are set iff it is the dashboard; the token endpoint is called iff the code and all three settings are present; the access cookie is http-only, lax, 1 hour and secure in production, and the refresh cookie (7 days) is set iff a refresh token came back |
| AuthCallback.DashboardIsNoError | app/api/auth/callback/route.ts:12-58 | the dashboard URL differs from every error URL |
| AuthCallback.ErrorUrlInjective | app/api/auth/callback/route.ts:12-81 | different error codes give different redirect URLs |
| Middleware.Gate | middleware.ts:5-19 | with a token everything passes; without one, exactly the non-public paths are redirected, to the same URL with path /auth |
| Middleware.RedirectTargetPasses | middleware.ts:10-15 | the redirect target itself passes the gate, so there is no redirect loop |
| Middleware.PublicByPrefix | middleware.ts:10-12 | public paths are matched by prefix, so /authx is public and /dashboard is not |
| Middleware.Matches | middleware.ts:21-32 | a path is gated iff it begins with '/' and what follows starts with none of the excluded patterns |
| Middleware.Handle | middleware.ts:5-32 | unmatched paths always pass; matched paths get the gate's decision |
| Middleware.StaticPathsSkipped | middleware.ts:30 | static chunks, images, the favicon and public files are never gated, including the look-alike /favicon-ico |
| Middleware.PagesGated | middleware.ts:30 | /dashboard, /publicity and /api/emails are gated |

## Left out

- Network I/O, `fetch`, URLs, the `Authorization` header and request bodies are not modelled. Each request is a `Call` value, and the provider's answers are the `Net` parameter.
- `Date.now()` is the parameter `now`. One operation sees one instant, so the fetch of a listing and its per-message reads share a timestamp.
- Remote.Classify: the raw response is cut at 200 characters, while `substring` counts UTF-16 code units, so a body with characters outside the Basic Multilingual Plane keeps fewer characters in the source than in the model.
- `Net` answers the same request the same way each time. The token probe's read of a message and the listing's read of the same id cannot differ, and neither can the reads of an id listed twice.
- Gmail.ListEmails: reads still in flight when `Promise.all` rejects store their entries after `listEmails` has thrown. The model puts every successful read's entry in the returned state.
- GmailProperties.NewTokenClearsCache: every operation is modelled as atomic on the one shared instance. Requests that interleave are not modelled: a `getEmail` or listing still awaiting its fetch under the old token stores its entry after `setAccessToken` has emptied the caches, so an entry fetched under the old token can survive the switch in the source.
- Gmail.ListEmails: `Promise.all` runs the per-message reads concurrently. The model gives each read the cache as it was when the listing began. It reports the first failing id in list order, not the first to fail in time. Each read issues its request before the first one awaits, so the requests go out in list order in the source as in the model.
- Decoder.DecodeBase64Url: `atob`, `escape` and `decodeURIComponent` are the parameter `unwrap`, which returns None where they throw. Only the '-'/'_' translation is modelled.
- Text.ToLower: only ASCII letters are lower-cased; `toLowerCase` on other scripts is not modelled.
- Text.ParseInt: hexadecimal prefixes, non-ASCII white space and numbers beyond the exact-integer range are not modelled.
- Console logging is not modelled; it has no effect on results.
- `getLabels` is not modelled: it requests a relative URL and no caller reads it.
- The singleton `getInstance` is not modelled; callers pass the one `Service` value explicitly.
- JSON shape mismatches are not modelled. Examples are a header without a name, a message id that is not a string, or a body field of another type. Fields are modelled as present-or-absent strings.
- Header names that collide with object prototype keys (such as `__proto__`) are not modelled.
- `getServerSession`, `getToken` and NextAuth itself are not modelled. Their outcome is an input: a session, a thrown value, or whether a token exists.
- The other routes (`token`, `check`, `logout`, the NextAuth handler), the React pages, hooks and components are not part of this model.
- Middleware.Matches: line terminators inside a path are not modelled beyond the wildcard's exclusion of them. The matcher's regular expression is modelled only in the literal-prefix form it has.
- AuthCallback.Callback: a redirect that throws because the application URL is malformed is not modelled.

=== FILE: addresses.dfy ===
/** The e-mail address extractor applied to From/To header values: the global
    regular expression `[a-zA-Z0-9._%+-]+@[a-zA-Z0-9.-]+\.[a-zA-Z]{2,}`,
    written out as a left-to-right scanner with the engine's leftmost, greedy
    and backtracking choices. */
module Addresses {
  import opened Base
  import opened Text

  /** `a` splits as local part, `@` at `at`, domain, `.` at `dot`, and a
      top-level domain of two or more letters. */
  predicate AddressSplit(a: string, at: nat, dot: nat)
  {
    && 0 < at && at + 1 < dot && dot + 2 < |a|
    && a[at] == '@' && a[dot] == '.'
    && (forall k :: 0 <= k < at ==> IsLocalChar(a[k]))
    && (forall k :: at < k < dot ==> IsDomainChar(a[k]))
    && (forall k :: dot < k < |a| ==> IsAlpha(a[k]))
  }

  /** The whole of `a` matches the address pattern. */
  ghost predicate IsAddress(a: string)
  {
    exists at: nat, dot: nat :: AddressSplit(a, at, dot)
  }

  /** A dot at `d` followed by at least two letters: where `\.[a-zA-Z]{2,}` can start. */
  predicate TldAt(s: string, d: int)
  {
    0 <= d && d + 2 < |s| && s[d] == '.' && IsAlpha(s[d + 1]) && IsAlpha(s[d + 2])
  }

  /** The greatest `d` in `lo..hi` where a top-level domain can start: the
      domain part `[a-zA-Z0-9.-]+` is greedy and gives back one character at
      a time until the rest of the pattern matches. */
  function LastTld(s: string, lo: nat, hi: int): (r: Option<nat>)
    requires hi < |s|
    ensures r.Some? ==> lo <= r.value <= hi && TldAt(s, r.value)
    ensures r.Some? ==> forall d :: r.value < d <= hi ==> !TldAt(s, d)
    ensures r.None? ==> forall d :: lo <= d <= hi ==> !TldAt(s, d)
    decreases hi - lo
  {
    if hi < lo then None
    else if TldAt(s, hi) then Some(hi)
    else LastTld(s, lo, hi - 1)
  }

  lemma AddressWitness(s: string, i: nat, at: nat, d: nat, e: nat)
    requires i < at < d && d + 2 < e <= |s|
    requires s[at] == '@' && s[d] == '.' && at + 1 < d
    requires forall k :: i <= k < at ==> IsLocalChar(s[k])
    requires forall k :: at < k < d ==> IsDomainChar(s[k])
    requires forall k :: d < k < e ==> IsAlpha(s[k])
    ensures IsAddress(s[i..e])
  {
    assert AddressSplit(s[i..e], at - i, d - i);
  }

  /** Where the match that starts at `i` ends, if the pattern matches there. */
  function MatchAt(s: string, i: nat): (r: Option<nat>)
    requires i <= |s|
    ensures r.Some? ==> i < r.value <= |s| && IsAddress(s[i..r.value])
  {
    var at := RunEnd(s, i, LocalPart);
    if at == i || at == |s| || s[at] != '@' then None
    else
      var k := RunEnd(s, at + 1, DomainPart);
      match LastTld(s, at + 2, k - 1)
      case None => None
      case Some(d) =>
        var e := RunEnd(s, d + 1, Letter);
        assert e > d + 2 by {
          assert IsAlpha(s[d + 1]) && IsAlpha(s[d + 2]);
        }
        AddressWitness(s, i, at, d, e);
        Some(e)
  }

  /** Every match from position `i` on, as `String.prototype.match` with the
      global flag reports them: after a match the search resumes at its end. */
  function Scan(s: string, i: nat): (r: seq<string>)
    requires i <= |s|
    ensures forall k :: 0 <= k < |r| ==> IsAddress(r[k])
    decreases |s| - i
  {
    if i == |s| then []
    else
      match MatchAt(s, i)
      case Some(e) => [s[i..e]] + Scan(s, e)
      case None => Scan(s, i + 1)
  }

  /** `value.match(pattern) || []`: every address found in a header value. */
  function ExtractAddresses(value: string): (r: seq<string>)
    ensures forall k :: 0 <= k < |r| ==> IsAddress(r[k])
  {
    Scan(value, 0)
  }

  /** Inside a text, the only top-level domain of an embedded address starts
      at the address's last dot. */
  lemma LastTldOfAddress(s: string, i: nat, a: string, at: nat, dot: nat)
    requires AddressSplit(a, at, dot)
    requires i + |a| <= |s| && s[i..i + |a|] == a
    ensures LastTld(s, i + at + 2, i + |a| - 1) == Some(i + dot)
  {
    assert forall k :: 0 <= k < |a| ==> s[i + k] == a[k];
    assert TldAt(s, i + dot);
    assert forall d :: i + dot < d < i + |a| ==> !TldAt(s, d);
  }

  /** An address embedded in a text and not followed by a domain character is
      matched from its first character to its last. */
  lemma MatchAtAddress(s: string, i: nat, a: string, at: nat, dot: nat)
    requires AddressSplit(a, at, dot)
    requires i + |a| <= |s| && s[i..i + |a|] == a
    requires i + |a| < |s| ==> !IsDomainChar(s[i + |a|])
    ensures MatchAt(s, i) == Some(i + |a|)
  {
    AddressRuns(s, i, a, at, dot);
    LastTldOfAddress(s, i, a, at, dot);
    MatchAtSteps(s, i, i + at, i + |a|, i + dot, i + |a|);
  }

  /** The three runs `MatchAt` takes over an embedded address: the local part
      stops at the '@', and the domain and the top-level domain reach the end
      of the address. */
  lemma AddressRuns(s: string, i: nat, a: string, at: nat, dot: nat)
    requires AddressSplit(a, at, dot)
    requires i + |a| <= |s| && s[i..i + |a|] == a
    requires i + |a| < |s| ==> !IsDomainChar(s[i + |a|])
    ensures s[i + at] == '@'
    ensures RunEnd(s, i, LocalPart) == i + at
    ensures RunEnd(s, i + at + 1, DomainPart) == i + |a|
    ensures RunEnd(s, i + dot + 1, Letter) == i + |a|
  {
    LocalRunOfAddress(s, i, a, at, dot);
    DomainRunOfAddress(s, i, a, at, dot);
    TldRunOfAddress(s, i, a, at, dot);
  }

  lemma LocalRunOfAddress(s: string, i: nat, a: string, at: nat, dot: nat)
    requires AddressSplit(a, at, dot)
    requires i + |a| <= |s| && s[i..i + |a|] == a
    ensures s[i + at] == '@'
    ensures RunEnd(s, i, LocalPart) == i + at
  {
    assert forall k :: 0 <= k < |a| ==> s[i + k] == a[k];
    RunEndAt(s, i, i + at, LocalPart);
  }

  lemma DomainRunOfAddress(s: string, i: nat, a: string, at: nat, dot: nat)
    requires AddressSplit(a, at, dot)
    requires i + |a| <= |s| && s[i..i + |a|] == a
    requires i + |a| < |s| ==> !IsDomainChar(s[i + |a|])
    ensures RunEnd(s, i + at + 1, DomainPart) == i + |a|
  {
    assert forall k :: 0 <= k < |a| ==> s[i + k] == a[k];
    assert forall k :: at < k < |a| ==> IsDomainChar(a[k]);
    if i + |a| < |s| {
      RunEndAt(s, i + at + 1, i + |a|, DomainPart);
    } else {
      RunEndAll(s, i + at + 1, DomainPart);
    }
  }

  lemma TldRunOfAddress(s: string, i: nat, a: string, at: nat, dot: nat)
    requires AddressSplit(a, at, dot)
    requires i + |a| <= |s| && s[i..i + |a|] == a
    requires i + |a| < |s| ==> !IsDomainChar(s[i + |a|])
    ensures RunEnd(s, i + dot + 1, Letter) == i + |a|
  {
    assert forall k :: 0 <= k < |a| ==> s[i + k] == a[k];
    if i + |a| < |s| {
      RunEndAt(s, i + dot + 1, i + |a|, Letter);
    } else {
      RunEndAll(s, i + dot + 1, Letter);
    }
  }

  /** `MatchAt` by its steps: the local run, the '@', the domain run, the
      top-level domain search and the letters after the dot. */
  lemma MatchAtSteps(s: string, i: nat, at: nat, k: nat, d: nat, e: nat)
    requires i < at < |s| && s[at] == '@'
    requires RunEnd(s, i, LocalPart) == at
    requires at + 1 <= k <= |s| && RunEnd(s, at + 1, DomainPart) == k
    requires LastTld(s, at + 2, k - 1) == Some(d)
    requires RunEnd(s, d + 1, Letter) == e
    ensures MatchAt(s, i) == Some(e)
  {
  }

  /** Every address is found: a header value that is exactly an address
      yields that address and nothing else. */
  lemma AddressFound(a: string, at: nat, dot: nat)
    requires AddressSplit(a, at, dot)
    ensures ExtractAddresses(a) == [a]
  {
    assert a[0..|a|] == a;
    MatchAtAddress(a, 0, a, at, dot);
    assert Scan(a, |a|) == [];
    assert Scan(a, 0) == [a] + Scan(a, |a|);
  }

  /** Text without an `@` holds no address. */
  lemma {:induction false} ScanWithoutAt(s: string, i: nat)
    requires i <= |s|
    requires forall k :: 0 <= k < |s| ==> s[k] != '@'
    ensures Scan(s, i) == []
    decreases |s| - i
  {
    if i < |s| {
      assert MatchAt(s, i).None?;
      ScanWithoutAt(s, i + 1);
    }
  }

  /** A display name is dropped and the bracketed address kept: a From or To
      value `name <address>` whose name has no '@' yields just the address. */
  lemma DisplayNameDropped(name: string, a: string, at: nat, dot: nat)
    requires AddressSplit(a, at, dot)
    requires forall k :: 0 <= k < |name| ==> name[k] != '@'
    ensures ExtractAddresses(name + "<" + a + ">") == [a]
  {
    var s := name + "<" + a + ">";
    NameSkipped(s, name);
    BracketedAddressFound(s, |name| + 1, a, at, dot);
  }

  /** The scan passes over a name without '@' and the '<' after it. */
  lemma NameSkipped(s: string, name: string)
    requires |name| < |s| && s[..|name|] == name && s[|name|] == '<'
    requires forall k :: 0 <= k < |name| ==> name[k] != '@'
    ensures Scan(s, 0) == Scan(s, |name| + 1)
  {
    forall k | 0 <= k < |name| + 1 {
      NoMatchInName(s, name, k);
    }
    ScanSkip(s, 0, |name| + 1);
  }

  /** An address closed by the final '>' is the last thing the scan finds. */
  lemma BracketedAddressFound(s: string, i: nat, a: string, at: nat, dot: nat)
    requires AddressSplit(a, at, dot)
    requires |s| == i + |a| + 1 && s[i..i + |a|] == a && s[i + |a|] == '>'
    ensures Scan(s, i) == [a]
  {
    var e := i + |a|;
    MatchAtAddress(s, i, a, at, dot);
    RunEndAt(s, e, e, LocalPart);
    assert MatchAt(s, e).None?;
    assert Scan(s, e) == Scan(s, |s|) == [];
  }

  /** No match starts inside a name without '@' or at the '<' after it. */
  lemma NoMatchInName(s: string, name: string, i: nat)
    requires |name| < |s| && s[..|name|] == name && s[|name|] == '<'
    requires forall k :: 0 <= k < |name| ==> name[k] != '@'
    requires i <= |name|
    ensures MatchAt(s, i).None?
    ensures Scan(s, i) == Scan(s, i + 1)
  {
    assert forall k :: 0 <= k < |name| ==> s[k] == name[k];
    var at := RunEnd(s, i, LocalPart);
    assert !IsLocalChar(s[|name|]);
    assert at <= |name|;
    ScanStep(s, i);
  }

  /** Positions where nothing matches are skipped. */
  lemma {:induction false} ScanSkip(s: string, i: nat, j: nat)
    requires i <= j <= |s|
    requires forall k | i <= k < j :: Scan(s, k) == Scan(s, k + 1)
    ensures Scan(s, i) == Scan(s, j)
    decreases j - i
  {
    if i < j {
      ScanSkip(s, i + 1, j);
    }
  }

  /** A position where nothing matches is passed over. */
  lemma ScanStep(s: string, i: nat)
    requires i < |s| && MatchAt(s, i).None?
    ensures Scan(s, i) == Scan(s, i + 1)
  {
  }
}

=== FILE: auth_callback.dfy ===
/** The OAuth callback: exchanges the authorization code for tokens and
    redirects to the dashboard with the token cookies set, or back to the
    sign-in page with an error code. */
module AuthCallback {
  import opened Base

  const DefaultAppUrl := "http://localhost:3000"
  /** One hour, in seconds. */
  const AccessTokenMaxAge := 3600
  /** Seven days, in seconds. */
  const RefreshTokenMaxAge := 7 * 24 * 3600

  /** The client id, client secret and redirect URI from the environment. */
  datatype OAuthConfig = OAuthConfig(clientId: Option<string>, clientSecret: Option<string>, redirectUri: Option<string>)

  /** How the token exchange went: the request or a body read threw; the
      endpoint refused with the `error` field of its body; or it answered
      with the token fields of its body. */
  datatype Exchange =
    | ExchangeThrew
    | ExchangeRejected(error: Option<string>)
    | ExchangeGranted(accessToken: Option<string>, refreshToken: Option<string>)

  datatype Cookie = Cookie(name: string, value: string, httpOnly: bool, secure: bool, sameSite: string, maxAge: nat)

  /** Where the browser is sent, the cookies set, and whether the token
      endpoint was called. */
  datatype CallbackResult = CallbackResult(location: string, cookies: seq<Cookie>, exchanged: bool)

  const ErrorCodes := {"no_code", "config_error", "invalid_grant", "invalid_client", "no_token", "auth_failed"}

  function RedirectBase(appUrl: Option<string>): string
  {
    OrElse(appUrl, DefaultAppUrl)
  }

  function ErrorUrl(base: string, code: string): string
  {
    base + "/auth?error=" + code
  }

  function DashboardUrl(base: string): string
  {
    base + "/dashboard"
  }

  predicate ConfigComplete(c: OAuthConfig)
  {
    Truthy(c.clientId) && Truthy(c.clientSecret) && Truthy(c.redirectUri)
  }

  /** The error code of a refused exchange. */
  function RejectionCode(error: Option<string>): (code: string)
    ensures code in ErrorCodes
    ensures error == Some("invalid_grant") <==> code == "invalid_grant"
    ensures error == Some("invalid_client") <==> code == "invalid_client"
    ensures code != "invalid_grant" && code != "invalid_client" ==> code == "auth_failed"
  {
    if error == Some("invalid_grant") then "invalid_grant"
    else if error == Some("invalid_client") then "invalid_client"
    else "auth_failed"
  }

  function TokenCookie(name: string, value: string, production: bool, maxAge: nat): Cookie
  {
    Cookie(name, value, true, production, "lax", maxAge)
  }

  /** `GET /api/auth/callback`. */
  function Callback(appUrl: Option<string>, production: bool, code: Option<string>,
                    config: OAuthConfig, exchange: Exchange): (r: CallbackResult)
    ensures
      var base := RedirectBase(appUrl);
      && (r.location == DashboardUrl(base) || exists c :: c in ErrorCodes && r.location == ErrorUrl(base, c))
      && (r.cookies != [] <==> r.location == DashboardUrl(base))
    ensures r.exchanged <==> Truthy(code) && ConfigComplete(config)
    ensures !Truthy(code) ==> r == CallbackResult(ErrorUrl(RedirectBase(appUrl), "no_code"), [], false)
    ensures Truthy(code) && !ConfigComplete(config) ==>
      r == CallbackResult(ErrorUrl(RedirectBase(appUrl), "config_error"), [], false)
    ensures r.exchanged && exchange.ExchangeThrew? ==>
      r.location == ErrorUrl(RedirectBase(appUrl), "auth_failed")
    ensures r.exchanged && exchange.ExchangeRejected? ==>
      r.location == ErrorUrl(RedirectBase(appUrl), RejectionCode(exchange.error))
    ensures r.exchanged && exchange.ExchangeGranted? && !Truthy(exchange.accessToken) ==>
      r.location == ErrorUrl(RedirectBase(appUrl), "no_token") && r.cookies == []
    ensures r.exchanged && exchange.ExchangeGranted? && Truthy(exchange.accessToken) ==>
      && r.location == DashboardUrl(RedirectBase(appUrl))
      && r.cookies[0] == Cookie("access_token", exchange.accessToken.value, true, production, "lax", AccessTokenMaxAge)
      && (|r.cookies| == 2 <==> Truthy(exchange.refreshToken))
      && |r.cookies| <= 2
      && (|r.cookies| == 2 ==>
            r.cookies[1] == Cookie("refresh_token", exchange.refreshToken.value, true, production, "lax", RefreshTokenMaxAge))
  {
    var base := RedirectBase(appUrl);
    DashboardIsNoError(base);
    if !Truthy(code) then CallbackResult(ErrorUrl(base, "no_code"), [], false)
    else if !ConfigComplete(config) then CallbackResult(ErrorUrl(base, "config_error"), [], false)
    else
      match exchange
      case ExchangeThrew => CallbackResult(ErrorUrl(base, "auth_failed"), [], true)
      case ExchangeRejected(error) => CallbackResult(ErrorUrl(base, RejectionCode(error)), [], true)
      case ExchangeGranted(access, refresh) =>
        if !Truthy(access) then CallbackResult(ErrorUrl(base, "no_token"), [], true)
        else
          var cookies := [TokenCookie("access_token", access.value, production, AccessTokenMaxAge)]
            + (if Truthy(refresh) then [TokenCookie("refresh_token", refresh.value, production, RefreshTokenMaxAge)] else []);
          CallbackResult(DashboardUrl(base), cookies, true)
  }

  /** The dashboard URL is never an error URL. */
  lemma DashboardIsNoError(base: string)
    ensures forall c :: DashboardUrl(base) != ErrorUrl(base, c)
  {
    forall c
      ensures DashboardUrl(base) != ErrorUrl(base, c)
    {
      assert DashboardUrl(base)[|base| + 1] == 'd';
      assert ErrorUrl(base, c)[|base| + 1] == 'a';
    }
  }

  /** The error code can be read back from the redirect: different codes give
      different locations. */
  lemma ErrorUrlInjective(base: string, c1: string, c2: string)
    requires ErrorUrl(base, c1) == ErrorUrl(base, c2)
    ensures c1 == c2
  {
    var head := base + "/auth?error=";
    assert ErrorUrl(base, c1) == head + c1 && ErrorUrl(base, c2) == head + c2;
    assert c1 == (head + c1)[|head|..];
    assert c2 == (head + c2)[|head|..];
  }
}

=== FILE: base.dfy ===
/** Optional values and results, with JavaScript's truthiness of optional text. */
module Base {

  /** A value that may be missing: `undefined`/`null` in the source. */
  datatype Option<+T> = None | Some(value: T)

  /** The outcome of an operation that may throw: `Err` carries the error message. */
  datatype Result<+T, +E> = Ok(value: T) | Err(error: E)

  /** JavaScript truthiness of an optional string: a missing value and "" are falsy. */
  predicate Truthy(o: Option<string>)
  {
    o.Some? && o.value != ""
  }

  /** `a || b` where `a` is optional text and `b` a fallback string. */
  function OrElse(o: Option<string>, fallback: string): (r: string)
    ensures Truthy(o) ==> r == o.value
    ensures !Truthy(o) ==> r == fallback
  {
    if Truthy(o) then o.value else fallback
  }
}

=== FILE: decoder.dfy ===
/** Pure decoding of provider messages: the header map, the header summary
    and the text body. */
module Decoder {
  import opened Base
  import opened Text
  import opened Addresses
  import opened Messages

  /** The map key of a header: its name, lower-cased. */
  function HeaderKey(h: Header): string
  {
    ToLower(h.name)
  }

  /** The value list one header contributes: the addresses found in a From or
      To value, the raw value wrapped in a list otherwise. */
  function HeaderValues(h: Header): (vs: seq<string>)
    ensures HeaderKey(h) == "from" || HeaderKey(h) == "to" ==> vs == ExtractAddresses(h.value)
    ensures HeaderKey(h) == "from" || HeaderKey(h) == "to" ==>
      forall k :: 0 <= k < |vs| ==> IsAddress(vs[k])
    ensures HeaderKey(h) != "from" && HeaderKey(h) != "to" ==> vs == [h.value]
  {
    var key := HeaderKey(h);
    if key == "from" || key == "to" then ExtractAddresses(h.value) else [h.value]
  }

  /** A From or To value that is exactly one address is kept whole. */
  lemma AddressHeaderKept(h: Header, at: nat, dot: nat)
    requires HeaderKey(h) == "from" || HeaderKey(h) == "to"
    requires AddressSplit(h.value, at, dot)
    ensures HeaderValues(h) == [h.value]
  {
    AddressFound(h.value, at, dot);
  }

  /** Header `i` is the last one carrying its key. */
  predicate IsLastWithKey(hs: seq<Header>, i: nat)
    requires i < |hs|
  {
    forall j :: i < j < |hs| ==> HeaderKey(hs[j]) != HeaderKey(hs[i])
  }

  /** Header `i` is the first one whose key is `key`. */
  predicate IsFirstWithKey(hs: seq<Header>, i: nat, key: string)
    requires i < |hs|
  {
    HeaderKey(hs[i]) == key && forall j :: 0 <= j < i ==> HeaderKey(hs[j]) != key
  }

  /** The map built by visiting `entries` in order, each one overwriting the
      entry of its key. */
  function Overwrite<K(==), V>(entries: seq<(K, V)>): map<K, V>
    decreases |entries|
  {
    if entries == [] then map[]
    else
      var last := entries[|entries| - 1];
      Overwrite(entries[..|entries| - 1])[last.0 := last.1]
  }

  /** The keys of an overwriting map are the keys of its entries. */
  lemma {:induction false} OverwriteKeys<K, V>(entries: seq<(K, V)>, k: K)
    ensures k in Overwrite(entries) <==> exists i :: 0 <= i < |entries| && entries[i].0 == k
    decreases |entries|
  {
    if entries != [] {
      var init := entries[..|entries| - 1];
      OverwriteKeys(init, k);
      assert forall i :: 0 <= i < |init| ==> init[i] == entries[i];
    }
  }

  /** An entry that no later entry overwrites is the one the map keeps. */
  lemma {:induction false} OverwriteLastWins<K, V>(entries: seq<(K, V)>, i: nat)
    requires i < |entries|
    requires forall j :: i < j < |entries| ==> entries[j].0 != entries[i].0
    ensures entries[i].0 in Overwrite(entries)
    ensures Overwrite(entries)[entries[i].0] == entries[i].1
    decreases |entries|
  {
    var init := entries[..|entries| - 1];
    if i < |init| {
      assert forall j :: i < j < |init| ==> init[j] == entries[j];
      OverwriteLastWins(init, i);
    }
  }

  /** `OverwriteKeys` for every key at once. */
  lemma OverwriteAllKeys<K, V>(entries: seq<(K, V)>)
    ensures forall k :: k in Overwrite(entries) <==> exists i :: 0 <= i < |entries| && entries[i].0 == k
  {
    forall k {
      OverwriteKeys(entries, k);
    }
  }

  /** `OverwriteLastWins` for every entry at once. */
  lemma OverwriteAllLast<K, V>(entries: seq<(K, V)>)
    ensures forall i :: 0 <= i < |entries| && (forall j :: i < j < |entries| ==> entries[j].0 != entries[i].0) ==>
      entries[i].0 in Overwrite(entries) && Overwrite(entries)[entries[i].0] == entries[i].1
  {
    forall i | 0 <= i < |entries| && (forall j :: i < j < |entries| ==> entries[j].0 != entries[i].0) {
      OverwriteLastWins(entries, i);
    }
  }

  /** Each header as its map entry: lower-cased name and values. */
  function HeaderEntries(hs: seq<Header>): (es: seq<(string, seq<string>)>)
    ensures |es| == |hs|
    ensures forall i :: 0 <= i < |hs| ==> es[i] == (HeaderKey(hs[i]), HeaderValues(hs[i]))
  {
    seq(|hs|, i requires 0 <= i < |hs| => (HeaderKey(hs[i]), HeaderValues(hs[i])))
  }

  /** The header map: headers are visited in order and each one overwrites the
      entry of its lower-cased name, so a repeated name keeps its last value.
      A missing headers array is read as empty and gives the empty map. */
  function ParseHeaders(hs: seq<Header>): (r: HeaderMap)
    ensures forall key :: key in r <==> exists i :: 0 <= i < |hs| && HeaderKey(hs[i]) == key
    ensures forall i :: 0 <= i < |hs| && IsLastWithKey(hs, i) ==> r[HeaderKey(hs[i])] == HeaderValues(hs[i])
  {
    var es := HeaderEntries(hs);
    OverwriteAllKeys(es);
    OverwriteAllLast(es);
    assert forall i :: 0 <= i < |hs| && IsLastWithKey(hs, i) ==> forall j :: i < j < |es| ==> es[j].0 != es[i].0;
    Overwrite(es)
  }

  /** The index of the last header whose key is `key`, searching the first `n`. */
  function LastIndexOf(hs: seq<Header>, key: string, n: nat): (r: Option<nat>)
    requires n <= |hs|
    ensures r.Some? ==> r.value < n && HeaderKey(hs[r.value]) == key
    ensures r.Some? ==> forall j :: r.value < j < n ==> HeaderKey(hs[j]) != key
    ensures r.None? ==> forall j :: 0 <= j < n ==> HeaderKey(hs[j]) != key
    decreases n
  {
    if n == 0 then None
    else if HeaderKey(hs[n - 1]) == key then Some(n - 1)
    else LastIndexOf(hs, key, n - 1)
  }

  /** The header map against a reference definition: a key is present exactly
      when some header carries it, and its entry comes from the last such
      header; every key is lower-case, From/To entries hold only addresses and
      every other entry is the one raw value of that header. */
  lemma ParseHeadersIsLastOccurrence(hs: seq<Header>, key: string)
    ensures key in ParseHeaders(hs) <==> LastIndexOf(hs, key, |hs|).Some?
    ensures key in ParseHeaders(hs) ==>
      var i := LastIndexOf(hs, key, |hs|).value;
      && ToLower(key) == key
      && ParseHeaders(hs)[key] == HeaderValues(hs[i])
      && (key == "from" || key == "to" ==> forall a :: a in ParseHeaders(hs)[key] ==> IsAddress(a))
      && (key != "from" && key != "to" ==> ParseHeaders(hs)[key] == [hs[i].value])
  {
    var r := LastIndexOf(hs, key, |hs|);
    if r.Some? {
      var i := r.value;
      assert IsLastWithKey(hs, i);
      ToLowerIdempotent(hs[i].name);
    }
  }

  /** The index of the first header whose key is `key`, searching from `i`:
      `Array.prototype.find`. */
  function FindFrom(hs: seq<Header>, key: string, i: nat): (r: Option<nat>)
    requires i <= |hs|
    ensures r.Some? ==> i <= r.value < |hs| && HeaderKey(hs[r.value]) == key
    ensures r.Some? ==> forall j :: i <= j < r.value ==> HeaderKey(hs[j]) != key
    ensures r.None? ==> forall j :: i <= j < |hs| ==> HeaderKey(hs[j]) != key
    decreases |hs| - i
  {
    if i == |hs| then None
    else if HeaderKey(hs[i]) == key then Some(i)
    else FindFrom(hs, key, i + 1)
  }

  /** `headers.find(h => h.name.toLowerCase() === key)?.value`. */
  function FirstValue(hs: seq<Header>, key: string): (r: Option<string>)
    ensures r.Some? <==> exists i :: 0 <= i < |hs| && IsFirstWithKey(hs, i, key)
    ensures forall i :: 0 <= i < |hs| && IsFirstWithKey(hs, i, key) ==> r == Some(hs[i].value)
  {
    match FindFrom(hs, key, 0)
    case None => None
    case Some(i) =>
      assert IsFirstWithKey(hs, i, key);
      Some(hs[i].value)
  }

  const NoSubject := "Без теми"
  const UnknownSender := "Невідомий відправник"
  const UnknownRecipient := "Невідомий отримувач"

  /** The display fields of a message. `date` is missing when neither a date
      header nor the message's internal date supplies one. */
  datatype Summary = Summary(subject: string, from: string, to: string, date: Option<string>)

  /** A field taken from the first header named `key` when its value is not
      empty, and `fallback` otherwise. */
  ghost predicate FirstValueOr(hs: seq<Header>, key: string, fallback: string, v: string)
  {
    && (forall i :: 0 <= i < |hs| && IsFirstWithKey(hs, i, key) && hs[i].value != "" ==> v == hs[i].value)
    && ((forall i :: 0 <= i < |hs| && IsFirstWithKey(hs, i, key) ==> hs[i].value == "") ==> v == fallback)
  }

  /** Subject, sender, recipient and date from the FIRST header of each name,
      with fixed fallbacks; the date falls back to the internal date. */
  function ParseEmailHeaders(m: Message): (r: Summary)
    ensures r.subject != "" && r.from != "" && r.to != ""
    ensures FirstValueOr(HeadersOf(m), "subject", NoSubject, r.subject)
    ensures FirstValueOr(HeadersOf(m), "from", UnknownSender, r.from)
    ensures FirstValueOr(HeadersOf(m), "to", UnknownRecipient, r.to)
    ensures forall i :: 0 <= i < |HeadersOf(m)| && IsFirstWithKey(HeadersOf(m), i, "date") ==>
      r.date == if HeadersOf(m)[i].value != "" then Some(HeadersOf(m)[i].value) else m.internalDate
    ensures (forall i :: 0 <= i < |HeadersOf(m)| ==> HeaderKey(HeadersOf(m)[i]) != "date") ==>
      r.date == m.internalDate
  {
    var hs := HeadersOf(m);
    var date := FirstValue(hs, "date");
    Summary(
      OrElse(FirstValue(hs, "subject"), NoSubject),
      OrElse(FirstValue(hs, "from"), UnknownSender),
      OrElse(FirstValue(hs, "to"), UnknownRecipient),
      if Truthy(date) then date else m.internalDate)
  }

  /** With two Subject headers the summary shows the first and the header map
      keeps the last. */
  lemma SummaryFirstMapLast(m: Message, i: nat, j: nat)
    requires i < j < |HeadersOf(m)|
    requires IsFirstWithKey(HeadersOf(m), i, "subject") && IsLastWithKey(HeadersOf(m), j)
    requires HeaderKey(HeadersOf(m)[j]) == "subject"
    requires HeadersOf(m)[i].value != ""
    ensures ParseEmailHeaders(m).subject == HeadersOf(m)[i].value
    ensures "subject" in ParseHeaders(HeadersOf(m))
    ensures ParseHeaders(HeadersOf(m))["subject"] == [HeadersOf(m)[j].value]
  {
    assert IsLastWithKey(HeadersOf(m), j);
  }

  const EmptyBody := "Тіло листа порожнє"

  /** `data.replace(/-/g, '+').replace(/_/g, '/')`: base64url to base64. */
  function ToStandardBase64(data: string): (r: string)
    ensures |r| == |data|
    ensures forall i :: 0 <= i < |r| ==> r[i] != '-' && r[i] != '_'
    ensures forall i :: 0 <= i < |data| && data[i] != '-' && data[i] != '_' ==> r[i] == data[i]
  {
    seq(|data|, i requires 0 <= i < |data| =>
      if data[i] == '-' then '+' else if data[i] == '_' then '/' else data[i])
  }

  /** The provider's direction: base64 to base64url. */
  function ToBase64Url(data: string): (r: string)
    ensures |r| == |data|
  {
    seq(|data|, i requires 0 <= i < |data| =>
      if data[i] == '+' then '-' else if data[i] == '/' then '_' else data[i])
  }

  /** Translating a base64 text to base64url and back gives it unchanged. */
  lemma Base64UrlRoundTrip(data: string)
    requires forall i :: 0 <= i < |data| ==> data[i] != '-' && data[i] != '_'
    ensures ToStandardBase64(ToBase64Url(data)) == data
  {
    var u := ToBase64Url(data);
    assert forall i :: 0 <= i < |u| ==> ToStandardBase64(u)[i] == data[i];
  }

  /** `decodeBase64Url`: the alphabet translation, then the library decoding
      (`atob` and UTF-8 percent-decoding), given as `unwrap`; `None` from
      `unwrap` means the library threw. */
  function DecodeBase64Url(data: string, unwrap: string -> Option<string>): Option<string>
  {
    unwrap(ToStandardBase64(data))
  }

  predicate IsTextPart(p: Part)
  {
    p.mimeType == "text/plain" || p.mimeType == "text/html"
  }

  /** Part `i` is the first text part of `parts`. */
  predicate IsFirstTextPart(parts: seq<Part>, i: nat)
    requires i < |parts|
  {
    IsTextPart(parts[i]) && forall j :: 0 <= j < i ==> !IsTextPart(parts[j])
  }

  function FirstTextPartFrom(parts: seq<Part>, i: nat): (r: Option<nat>)
    requires i <= |parts|
    ensures r.Some? ==> i <= r.value < |parts| && IsTextPart(parts[r.value])
    ensures r.Some? ==> forall j :: i <= j < r.value ==> !IsTextPart(parts[j])
    ensures r.None? ==> forall j :: i <= j < |parts| ==> !IsTextPart(parts[j])
    decreases |parts| - i
  {
    if i == |parts| then None
    else if IsTextPart(parts[i]) then Some(i)
    else FirstTextPartFrom(parts, i + 1)
  }

  predicate HasInlineData(p: Payload)
  {
    p.body.Some? && Truthy(p.body.value.data)
  }

  /** The encoded text the body decoder picks: the inline body when it has
      data, else the data of the first text/plain or text/html part (one level
      deep, list order); a first text part without data gives nothing even if a
      later part has some. */
  function BodySource(p: Payload): (r: Option<string>)
    ensures r.Some? ==> r.value != ""
    ensures HasInlineData(p) ==> r == p.body.value.data
    ensures !HasInlineData(p) && p.parts.None? ==> r.None?
    ensures !HasInlineData(p) && p.parts.Some? ==>
      && (forall i :: 0 <= i < |p.parts.value| && IsFirstTextPart(p.parts.value, i) ==>
            r == if Truthy(p.parts.value[i].body.data) then p.parts.value[i].body.data else None)
      && ((forall i :: 0 <= i < |p.parts.value| ==> !IsTextPart(p.parts.value[i])) ==> r.None?)
  {
    if HasInlineData(p) then p.body.value.data
    else if p.parts.Some? then
      match FirstTextPartFrom(p.parts.value, 0)
      case None => None
      case Some(i) =>
        if Truthy(p.parts.value[i].body.data) then p.parts.value[i].body.data else None
    else None
  }

  /** `decodeMessageBody`: the decoded text of the chosen body, or the fixed
      empty-body text when there is no payload, nothing to decode, or the
      decoding is empty. `None` means the library decoding threw. */
  function DecodeMessageBody(m: Message, unwrap: string -> Option<string>): (r: Option<string>)
    ensures r.Some? ==> r.value != ""
    ensures m.payload.None? ==> r == Some(EmptyBody)
    ensures m.payload.Some? && BodySource(m.payload.value).None? ==> r == Some(EmptyBody)
    ensures m.payload.Some? && BodySource(m.payload.value).Some? ==>
      var decoded := DecodeBase64Url(BodySource(m.payload.value).value, unwrap);
      && (decoded.None? <==> r.None?)
      && (decoded.Some? && decoded.value != "" ==> r == decoded)
      && (decoded == Some("") ==> r == Some(EmptyBody))
  {
    match m.payload
    case None => Some(EmptyBody)
    case Some(p) =>
      match BodySource(p)
      case None => Some(EmptyBody)
      case Some(data) =>
        match DecodeBase64Url(data, unwrap)
        case None => None
        case Some(text) => Some(if text == "" then EmptyBody else text)
  }

  /** A message whose only content is an inline base64url body. */
  function InlineMessage(id: string, data: string): Message
  {
    Message(id, id, None, None, Some(Payload(None, Some(Body(Some(data))), None)), None)
  }

  /** A body the provider encoded gives back its text: standard base64 `std`
      of a non-empty `text`, sent in the URL alphabet, decodes to `text`
      whenever the library decoding inverts the standard encoding. */
  lemma InlineBodyRoundTrip(id: string, text: string, std: string, unwrap: string -> Option<string>)
    requires std != "" && text != ""
    requires forall i :: 0 <= i < |std| ==> std[i] != '-' && std[i] != '_'
    requires unwrap(std) == Some(text)
    ensures DecodeMessageBody(InlineMessage(id, ToBase64Url(std)), unwrap) == Some(text)
  {
    Base64UrlRoundTrip(std);
  }
}

=== FILE: emails_route.dfy ===
/** The `/api/emails` handlers: GET lists the mailbox, POST applies one
    action to one message. Each takes the service state, what the session and
    request lookups produced, and the network's answers. */
module EmailsRoute {
  import opened Base
  import opened Text
  import opened Messages
  import opened Remote
  import opened Gmail

  /** A thrown value: an `Error` with its message, or anything else. */
  datatype Thrown = ErrorValue(message: string) | OtherValue

  /** The session lookup threw, or produced a session whose access token may
      be missing. */
  datatype SessionRead = SessionThrew(thrown: Thrown) | Session(accessToken: Option<string>)

  datatype JsonBody = ErrorBody(error: string) | EmailsBody(emails: seq<Email>) | SuccessBody

  datatype HttpResponse = HttpResponse(status: nat, body: JsonBody)

  /** The service state afterwards, the response, and the requests issued. */
  datatype Handled = Handled(state: Service, response: HttpResponse, calls: seq<Call>)

  const Unauthorized := "Unauthorized"
  const InvalidToken := "Invalid or insufficient permissions token"
  const FetchFailed := "Failed to fetch emails"
  const MissingFields := "Missing messageId or action"
  const InvalidAction := "Invalid action"
  const ModifyFailed := "Failed to modify email"

  /** The query parameters `page`, `pageSize` and `useCache`, when present. */
  datatype Query = Query(page: Option<string>, pageSize: Option<string>, useCache: Option<string>)

  /** The text of the page arguments and the cache flag. */
  datatype ListArgs = ListArgs(page: string, pageSize: string, useCache: bool)

  /** Missing or empty page arguments default to "1" and "20"; the cache is
      used unless `useCache` is exactly "false". */
  function ListArguments(q: Query): (a: ListArgs)
    ensures Truthy(q.page) ==> a.page == q.page.value
    ensures !Truthy(q.page) ==> a.page == "1"
    ensures Truthy(q.pageSize) ==> a.pageSize == q.pageSize.value
    ensures !Truthy(q.pageSize) ==> a.pageSize == "20"
    ensures !a.useCache <==> q.useCache == Some("false")
  {
    ListArgs(OrElse(q.page, "1"), OrElse(q.pageSize, "20"), q.useCache != Some("false"))
  }

  /** The message a catch block reports: an `Error`'s own message, or `fallback`. */
  function ThrownMessage(t: Thrown, fallback: string): string
  {
    match t
    case ErrorValue(message) => message
    case OtherValue => fallback
  }

  /** `GET /api/emails`. */
  function EmailsGet(s: Service, session: SessionRead, q: Query, now: nat, net: Net): (h: Handled)
    ensures h.response.status in {200, 401, 403, 500}
    ensures session.SessionThrew? ==>
      h == Handled(s, HttpResponse(500, ErrorBody(ThrownMessage(session.thrown, FetchFailed))), [])
    ensures session.Session? && !Truthy(session.accessToken) ==>
      h == Handled(s, HttpResponse(401, ErrorBody(Unauthorized)), [])
    ensures session.Session? && Truthy(session.accessToken) ==>
      var s1 := SetAccessToken(s, session.accessToken.value);
      var probe := ValidateToken(s1, net);
      && h.state.accessToken == session.accessToken
      && |probe.calls| <= |h.calls| && h.calls[..|probe.calls|] == probe.calls
      && (h.response.status == 403 <==> !probe.valid)
      && (!probe.valid ==> h == Handled(s1, HttpResponse(403, ErrorBody(InvalidToken)), probe.calls))
      && (probe.valid ==>
            var args := ListArguments(q);
            var o := ListEmails(s1, ParseInt(args.pageSize), ParseInt(args.page), args.useCache, now, net);
            && h.state == o.state
            && h.calls == probe.calls + o.calls
            && (o.result.Ok? ==> h.response == HttpResponse(200, EmailsBody(o.result.value)))
            && (o.result.Err? ==> h.response == HttpResponse(500, ErrorBody(o.result.error))))
  {
    match session
    case SessionThrew(t) => Handled(s, HttpResponse(500, ErrorBody(ThrownMessage(t, FetchFailed))), [])
    case Session(token) =>
      if !Truthy(token) then Handled(s, HttpResponse(401, ErrorBody(Unauthorized)), [])
      else
        var s1 := SetAccessToken(s, token.value);
        var probe := ValidateToken(s1, net);
        if !probe.valid then Handled(s1, HttpResponse(403, ErrorBody(InvalidToken)), probe.calls)
        else
          var args := ListArguments(q);
          var o := ListEmails(s1, ParseInt(args.pageSize), ParseInt(args.page), args.useCache, now, net);
          match o.result
          case Ok(emails) => Handled(o.state, HttpResponse(200, EmailsBody(emails)), probe.calls + o.calls)
          case Err(e) => Handled(o.state, HttpResponse(500, ErrorBody(e)), probe.calls + o.calls)
  }

  /** The JSON body of a POST: reading it threw, or it carries the two fields
      when present. */
  datatype BodyRead = BodyThrew | Fields(messageId: Option<string>, action: Option<string>)

  /** The response once the mutation has run. */
  function Finish(o: Outcome<()>): (h: Handled)
    ensures h.state == o.state && h.calls == o.calls
    ensures o.result.Ok? <==> h.response == HttpResponse(200, SuccessBody)
    ensures o.result.Err? <==> h.response == HttpResponse(500, ErrorBody(ModifyFailed))
  {
    match o.result
    case Ok(_) => Handled(o.state, HttpResponse(200, SuccessBody), o.calls)
    case Err(_) => Handled(o.state, HttpResponse(500, ErrorBody(ModifyFailed)), o.calls)
  }

  /** `POST /api/emails`: `markAsRead` marks the message read and
      `markAsImportant` marks it important; neither ever clears its flag. */
  function EmailsPost(s: Service, session: SessionRead, body: BodyRead, net: Net): (h: Handled)
    ensures h.response.status in {200, 400, 401, 500}
    ensures session.SessionThrew? ==> h == Handled(s, HttpResponse(500, ErrorBody(ModifyFailed)), [])
    ensures session.Session? && !Truthy(session.accessToken) ==>
      h == Handled(s, HttpResponse(401, ErrorBody(Unauthorized)), [])
    ensures session.Session? && Truthy(session.accessToken) && body.BodyThrew? ==>
      h == Handled(s, HttpResponse(500, ErrorBody(ModifyFailed)), [])
    ensures session.Session? && Truthy(session.accessToken) && body.Fields?
            && (!Truthy(body.messageId) || !Truthy(body.action)) ==>
      h == Handled(s, HttpResponse(400, ErrorBody(MissingFields)), [])
    ensures session.Session? && Truthy(session.accessToken) && body.Fields?
            && Truthy(body.messageId) && Truthy(body.action) ==>
      var s1 := SetAccessToken(s, session.accessToken.value);
      var id := body.messageId.value;
      && (body.action.value == "markAsRead" ==>
            h.calls == [ModifyLabels(id, [], [Unread])] && h == Finish(ToggleRead(s1, id, true, net)))
      && (body.action.value == "markAsImportant" ==>
            h.calls == [ModifyLabels(id, [Important], [])] && h == Finish(ToggleImportant(s1, id, true, net)))
      && (body.action.value != "markAsRead" && body.action.value != "markAsImportant" ==>
            h == Handled(s1, HttpResponse(400, ErrorBody(InvalidAction)), []))
  {
    match session
    case SessionThrew(_) => Handled(s, HttpResponse(500, ErrorBody(ModifyFailed)), [])
    case Session(token) =>
      if !Truthy(token) then Handled(s, HttpResponse(401, ErrorBody(Unauthorized)), [])
      else
        match body
        case BodyThrew => Handled(s, HttpResponse(500, ErrorBody(ModifyFailed)), [])
        case Fields(messageId, action) =>
          if !Truthy(messageId) || !Truthy(action) then
            Handled(s, HttpResponse(400, ErrorBody(MissingFields)), [])
          else
            var s1 := SetAccessToken(s, token.value);
            if action.value == "markAsRead" then Finish(ToggleRead(s1, messageId.value, true, net))
            else if action.value == "markAsImportant" then Finish(ToggleImportant(s1, messageId.value, true, net))
            else Handled(s1, HttpResponse(400, ErrorBody(InvalidAction)), [])
  }

  /** An unknown action is refused only after the token has been set, so a new
      token has already emptied the caches. */
  lemma UnknownActionAfterTokenSwitch(s: Service, token: string, id: string, action: string, net: Net)
    requires token != "" && id != "" && action != ""
    requires action != "markAsRead" && action != "markAsImportant"
    requires s.accessToken != Some(token)
    ensures
      var h := EmailsPost(s, Session(Some(token)), Fields(Some(id), Some(action)), net);
      && h.response.status == 400
      && h.state.emailsCache == map[] && h.state.messageListCache.None?
  {
  }
}

=== FILE: gmail.dfy ===
/** The mail access layer: a service holding the bearer token, a per-message
    cache and a one-slot cache of the last listing. Each operation is a pure
    transition that takes the current time and the network's answers, and
    returns the new state, the result (or the thrown error's message) and the
    requests it issued. */
module Gmail {
  import opened Base
  import opened Messages
  import opened Decoder
  import opened Remote

  /** How long a cached entry stays usable, in milliseconds. */
  const CacheExpiryMs := 60000
  /** `maxResults` of the listing request. */
  const ListPageSize := 50
  /** `maxResults` of the token probe's listing request. */
  const ProbeListSize := 1
  const InvalidListFormat := "Invalid response format from Gmail API"
  const ContentError := "Помилка завантаження вмісту листа"
  const Important := "IMPORTANT"
  const Unread := "UNREAD"

  /** A cached value with the time it was stored. */
  datatype Stamped<T> = Stamped(data: T, timestamp: nat)

  datatype Service = Service(
    accessToken: Option<string>,
    emailsCache: map<string, Stamped<Email>>,
    messageListCache: Option<Stamped<seq<Email>>>)

  /** The service as first created: no token, nothing cached. */
  const Initial := Service(None, map[], None)

  /** The new state, the result or the error message, and the requests issued. */
  datatype Outcome<T> = Outcome(state: Service, result: Result<T, string>, calls: seq<Call>)

  /** `setAccessToken`: a different token replaces the held one and empties
      both caches; the token already held changes nothing. */
  function SetAccessToken(s: Service, token: string): (r: Service)
    ensures r.accessToken == Some(token)
    ensures s.accessToken != Some(token) ==> r.emailsCache == map[] && r.messageListCache.None?
    ensures s.accessToken == Some(token) ==> r == s
  {
    if s.accessToken != Some(token) then ClearCache(s.(accessToken := Some(token))) else s
  }

  /** `clearCache`: both caches emptied, the token kept. */
  function ClearCache(s: Service): (r: Service)
    ensures r.accessToken == s.accessToken
    ensures r.emailsCache == map[] && r.messageListCache.None?
  {
    s.(emailsCache := map[], messageListCache := None)
  }

  /** `isCacheValid`: an entry stored at `timestamp` is usable at `now` while it
      is strictly younger than the expiry. */
  function IsCacheValid(timestamp: nat, now: nat): (valid: bool)
    ensures valid <==> now < timestamp + CacheExpiryMs
  {
    now - timestamp < CacheExpiryMs
  }

  /** The per-message cache holds a usable entry for `id`. */
  predicate FreshEntry(s: Service, id: string, now: nat)
  {
    id in s.emailsCache && IsCacheValid(s.emailsCache[id].timestamp, now)
  }

  /** The list slot holds a usable listing. */
  predicate FreshList(s: Service, now: nat)
  {
    s.messageListCache.Some? && IsCacheValid(s.messageListCache.value.timestamp, now)
  }

  /** `{...message, headers: parseHeaders(message.payload?.headers)}`. */
  function WithHeaders(m: Message): (e: Email)
    ensures e.message == m && e.headers.Some?
  {
    Email(m, Some(ParseHeaders(HeadersOf(m))))
  }

  /** `getEmail`: a usable cached entry is returned with no request; otherwise
      the message is fetched, its headers parsed, and the result cached under
      `id` stamped with `now`. A failed fetch leaves the state unchanged. */
  function GetEmail(s: Service, id: string, now: nat, net: Net): (o: Outcome<Email>)
    ensures FreshEntry(s, id, now) ==> o == Outcome(s, Ok(s.emailsCache[id].data), [])
    ensures !FreshEntry(s, id, now) ==>
      o.calls == if Truthy(s.accessToken) then [GetMessage(id)] else []
    ensures !FreshEntry(s, id, now) ==>
      (o.result.Ok? <==> Truthy(s.accessToken) && Succeeds(net.message(GetMessage(id))))
    ensures !FreshEntry(s, id, now) && o.result.Ok? ==>
      && o.result.value == WithHeaders(net.message(GetMessage(id)).json.value)
      && o.state == s.(emailsCache := s.emailsCache[id := Stamped(o.result.value, now)])
    ensures !FreshEntry(s, id, now) && o.result.Err? ==>
      o.result.error == FetchWithAuth(s.accessToken, GetMessage(id), net.message(GetMessage(id))).result.error
    ensures o.result.Err? ==> o.state == s
  {
    if FreshEntry(s, id, now) then Outcome(s, Ok(s.emailsCache[id].data), [])
    else
      var f := FetchWithAuth(s.accessToken, GetMessage(id), net.message(GetMessage(id)));
      match f.result
      case Err(e) => Outcome(s, Err(e), f.calls)
      case Ok(m) =>
        var email := WithHeaders(m);
        Outcome(s.(emailsCache := s.emailsCache[id := Stamped(email, now)]), Ok(email), f.calls)
  }

  /** The read of `id` fetched (rather than hit the cache) and succeeded. */
  predicate Fetches(s: Service, id: string, now: nat, net: Net)
  {
    !FreshEntry(s, id, now) && GetEmail(s, id, now, net).result.Ok?
  }

  /** The position of the first failure from `i` on, or `|results|`. */
  function FirstFailure<T>(results: seq<Result<T, string>>, i: nat): (k: nat)
    requires i <= |results|
    ensures i <= k <= |results|
    ensures forall j :: i <= j < k ==> results[j].Ok?
    ensures k < |results| ==> results[k].Err?
    decreases |results| - i
  {
    if i == |results| || results[i].Err? then i else FirstFailure(results, i + 1)
  }

  /** Results that all settle before any is looked at, combined as
      `Promise.all` combines them, from position `i` on: the error of the
      first failure in list order, otherwise every value in list order. */
  function CollectFrom<T>(results: seq<Result<T, string>>, i: nat): (r: Result<seq<T>, string>)
    requires i <= |results|
    ensures r.Err? <==> FirstFailure(results, i) < |results|
    ensures r.Err? ==> results[FirstFailure(results, i)] == Err(r.error)
    ensures r.Ok? ==>
      && |r.value| == |results| - i
      && forall k :: i <= k < |results| ==> r.value[k - i] == results[k].value
    decreases |results| - i
  {
    if i == |results| then Ok([])
    else
      match results[i]
      case Err(e) => Err(e)
      case Ok(v) =>
        match CollectFrom(results, i + 1)
        case Err(e) => Err(e)
        case Ok(vs) => Ok([v] + vs)
  }

  /** The requests of the per-message reads, in list order. */
  function ReadCalls(ids: seq<string>, read: string -> Outcome<Email>): seq<Call>
    decreases |ids|
  {
    if ids == [] then [] else read(ids[0]).calls + ReadCalls(ids[1..], read)
  }

  /** The requests a listing of `ids` makes with a token: one message request
      for each listed id without a usable cache entry, in list order. */
  function MissedReads(s: Service, ids: seq<string>, now: nat): (r: seq<Call>)
    ensures |r| <= |ids|
    ensures forall c :: c in r ==> c.GetMessage?
    ensures forall id :: GetMessage(id) in r <==> id in ids && !FreshEntry(s, id, now)
    decreases |ids|
  {
    if ids == [] then []
    else
      var first := if FreshEntry(s, ids[0], now) then [] else [GetMessage(ids[0])];
      assert ids == [ids[0]] + ids[1..];
      first + MissedReads(s, ids[1..], now)
  }

  /** When every read requests its message exactly when a token is present
      and the cache misses, the reads together make the requests
      `MissedReads` names, and none without a token. */
  lemma {:induction false} ReadCallsMissed(s: Service, ids: seq<string>, now: nat, token: bool,
                                           read: string -> Outcome<Email>)
    requires forall id :: read(id).calls == if token && !FreshEntry(s, id, now) then [GetMessage(id)] else []
    ensures ReadCalls(ids, read) == if token then MissedReads(s, ids, now) else []
    decreases |ids|
  {
    if ids != [] {
      ReadCallsMissed(s, ids[1..], now, token, read);
    }
  }

  /** The requests of the per-message reads of a listing of `ids`. */
  function ListingCalls(s: Service, ids: seq<string>, now: nat, net: Net): (r: seq<Call>)
    ensures Truthy(s.accessToken) ==> r == MissedReads(s, ids, now)
    ensures !Truthy(s.accessToken) ==> r == []
  {
    var read := id => GetEmail(s, id, now, net);
    ReadCallsMissed(s, ids, now, Truthy(s.accessToken), read);
    ReadCalls(ids, read)
  }

  /** The ids of the listing response, when the listing request succeeds. */
  function ListedIds(net: Net): Option<seq<string>>
  {
    var reply := net.list(ListPageSize);
    if Succeeds(reply) then reply.json.value.messages else None
  }

  /** The cache after the reads of `ids`: every read that fetched and
      succeeded is stored, stamped `now`, even when another read failed; every
      other entry is kept. */
  function StoreFetched(s: Service, ids: seq<string>, now: nat, net: Net): (c: map<string, Stamped<Email>>)
    ensures forall id :: id in s.emailsCache ==> id in c
    ensures forall id :: id in c ==>
      || (id in s.emailsCache && c[id] == s.emailsCache[id])
      || (id in ids && Fetches(s, id, now, net) && c[id] == Stamped(GetEmail(s, id, now, net).result.value, now))
  {
    s.emailsCache + map id | id in ids && Fetches(s, id, now, net) :: Stamped(GetEmail(s, id, now, net).result.value, now)
  }

  /** One listed message as the listing holds it: read as `getEmail` reads
      it, then its headers parsed again from its payload. */
  function ListedRead(s: Service, id: string, now: nat, net: Net): (r: Result<Email, string>)
    ensures r.Ok? <==> GetEmail(s, id, now, net).result.Ok?
    ensures r.Ok? ==> r.value == WithHeaders(GetEmail(s, id, now, net).result.value.message)
  {
    match GetEmail(s, id, now, net).result
    case Err(e) => Err(e)
    case Ok(email) => Ok(WithHeaders(email.message))
  }

  /** The second half of a listing: every listed message read as `getEmail`
      reads it, the fetched ones cached, and on success the listing stored in
      the list slot stamped `now`. */
  function ReadListed(s: Service, ids: seq<string>, now: nat, net: Net): (o: Outcome<seq<Email>>)
    ensures o.state.accessToken == s.accessToken
    ensures o.state.emailsCache == StoreFetched(s, ids, now, net)
    ensures o.result.Err? ==> o.state.messageListCache == s.messageListCache
    ensures o.result.Err? ==>
      var k := FirstFailure(ListingReads(s, ids, now, net), 0);
      && k < |ids| && ListedRead(s, ids[k], now, net) == Err(o.result.error)
      && forall j :: 0 <= j < k ==> ListedRead(s, ids[j], now, net).Ok?
    ensures o.result.Ok? ==>
      && o.state.messageListCache == Some(Stamped(o.result.value, now))
      && |o.result.value| == |ids|
      && forall i :: 0 <= i < |ids| ==> ListedRead(s, ids[i], now, net) == Ok(o.result.value[i])
    ensures Truthy(s.accessToken) ==> o.calls == MissedReads(s, ids, now)
  {
    var calls := ListingCalls(s, ids, now, net);
    var cache := StoreFetched(s, ids, now, net);
    var results := ListingReads(s, ids, now, net);
    match CollectFrom(results, 0)
    case Err(e) => Outcome(s.(emailsCache := cache), Err(e), calls)
    case Ok(es) => Outcome(Service(s.accessToken, cache, Some(Stamped(es, now))), Ok(es), calls)
  }

  /** The listing's reads of `ids`, in list order. */
  function ListingReads(s: Service, ids: seq<string>, now: nat, net: Net): (rs: seq<Result<Email, string>>)
    ensures |rs| == |ids|
    ensures forall k :: 0 <= k < |ids| ==> rs[k] == ListedRead(s, ids[k], now, net)
  {
    ListedReads(ids, id => ListedRead(s, id, now, net))
  }

  /** The outcome of `read` for each id, in list order. */
  function ListedReads(ids: seq<string>, read: string -> Result<Email, string>): (rs: seq<Result<Email, string>>)
    ensures |rs| == |ids|
    ensures forall k :: 0 <= k < |ids| ==> rs[k] == read(ids[k])
  {
    seq(|ids|, k requires 0 <= k < |ids| => read(ids[k]))
  }

  /** `listEmails`: a usable list slot is returned as it is, whatever the page,
      page size or `useCache` (none of which the source reads); otherwise the
      id list is fetched, each listed message is read as `getEmail` reads it,
      and the listing, with headers parsed, fills the list slot. */
  function ListEmails(s: Service, pageSize: Option<int>, page: Option<int>, useCache: bool,
                      now: nat, net: Net): (o: Outcome<seq<Email>>)
    ensures FreshList(s, now) ==> o == Outcome(s, Ok(s.messageListCache.value.data), [])
    ensures !FreshList(s, now) && !Truthy(s.accessToken) ==> o == Outcome(s, Err(NoTokenMessage), [])
    ensures (!FreshList(s, now) && Truthy(s.accessToken) && Succeeds(net.list(ListPageSize))
             && ListedIds(net).None?) ==> o == Outcome(s, Err(InvalidListFormat), [ListMessages(ListPageSize)])
    ensures !FreshList(s, now) && Truthy(s.accessToken) ==>
      |o.calls| >= 1 && o.calls[0] == ListMessages(ListPageSize)
    ensures !FreshList(s, now) && Truthy(s.accessToken) && ListedIds(net).None? ==>
      o.calls == [ListMessages(ListPageSize)]
    ensures !FreshList(s, now) && Truthy(s.accessToken) && ListedIds(net).Some? ==>
      o.calls == [ListMessages(ListPageSize)] + MissedReads(s, ListedIds(net).value, now)
    ensures !FreshList(s, now) && !(Truthy(s.accessToken) && Succeeds(net.list(ListPageSize))) ==>
      && o.result.Err?
      && o.result.error == FetchWithAuth(s.accessToken, ListMessages(ListPageSize), net.list(ListPageSize)).result.error
    ensures o.state.accessToken == s.accessToken
    ensures o.result.Err? ==> o.state.messageListCache == s.messageListCache
    ensures !FreshList(s, now) && Truthy(s.accessToken) && ListedIds(net).Some? && o.result.Err? ==>
      var ids := ListedIds(net).value;
      var k := FirstFailure(ListingReads(s, ids, now, net), 0);
      && k < |ids| && ListedRead(s, ids[k], now, net) == Err(o.result.error)
      && forall j :: 0 <= j < k ==> ListedRead(s, ids[j], now, net).Ok?
    ensures !FreshList(s, now) && o.result.Ok? ==>
      && ListedIds(net).Some?
      && o.state.messageListCache == Some(Stamped(o.result.value, now))
      && |o.result.value| == |ListedIds(net).value|
      && forall i :: 0 <= i < |o.result.value| ==>
           ListedRead(s, ListedIds(net).value[i], now, net) == Ok(o.result.value[i])
    ensures forall id :: id in s.emailsCache ==> id in o.state.emailsCache
    ensures forall id :: id in o.state.emailsCache ==>
      || (id in s.emailsCache && o.state.emailsCache[id] == s.emailsCache[id])
      || (ListedIds(net).Some? && id in ListedIds(net).value && Fetches(s, id, now, net)
          && o.state.emailsCache[id] == Stamped(GetEmail(s, id, now, net).result.value, now))
  {
    if FreshList(s, now) then Outcome(s, Ok(s.messageListCache.value.data), [])
    else
      var f: Fetched<IdList> := FetchWithAuth(s.accessToken, ListMessages(ListPageSize), net.list(ListPageSize));
      match f.result
      case Err(e) => Outcome(s, Err(e), f.calls)
      case Ok(IdList(None)) => Outcome(s, Err(InvalidListFormat), f.calls)
      case Ok(IdList(Some(ids))) =>
        var o := ReadListed(s, ids, now, net);
        Outcome(o.state, o.result, f.calls + o.calls)
  }

  /** The label lists of a modify request. */
  datatype LabelChange = LabelChange(add: seq<string>, remove: seq<string>)

  /** Marking important adds IMPORTANT; unmarking removes it. */
  function ImportantChange(isImportant: bool): (c: LabelChange)
    ensures isImportant ==> c == LabelChange([Important], [])
    ensures !isImportant ==> c == LabelChange([], [Important])
  {
    if isImportant then LabelChange([Important], []) else LabelChange([], [Important])
  }

  /** Marking read removes UNREAD; marking unread adds it. */
  function ReadChange(isRead: bool): (c: LabelChange)
    ensures isRead ==> c == LabelChange([], [Unread])
    ensures !isRead ==> c == LabelChange([Unread], [])
  {
    if isRead then LabelChange([], [Unread]) else LabelChange([Unread], [])
  }

  /** The cache after a mutation of `id`: its entry dropped, the listing
      dropped, every other entry kept. */
  predicate InvalidatedOnly(s: Service, r: Service, id: string)
  {
    && r.accessToken == s.accessToken
    && r.messageListCache.None?
    && r.emailsCache.Keys == s.emailsCache.Keys - {id}
    && forall k :: k in r.emailsCache ==> r.emailsCache[k] == s.emailsCache[k]
  }

  /** One mutation request about `id`; on success the caches are invalidated,
      on failure the state is left untouched and the error propagates. */
  function Mutate(s: Service, id: string, call: Call, net: Net): (o: Outcome<()>)
    ensures o.calls == if Truthy(s.accessToken) then [call] else []
    ensures o.result.Ok? <==> Truthy(s.accessToken) && Succeeds(net.mutation(call))
    ensures o.result.Ok? ==> InvalidatedOnly(s, o.state, id)
    ensures o.result.Err? ==> o.state == s
  {
    var f := FetchWithAuth(s.accessToken, call, net.mutation(call));
    match f.result
    case Err(e) => Outcome(s, Err(e), f.calls)
    case Ok(_) => Outcome(s.(emailsCache := s.emailsCache - {id}, messageListCache := None), Ok(()), f.calls)
  }

  function ModifyCall(id: string, c: LabelChange): Call
  {
    ModifyLabels(id, c.add, c.remove)
  }

  /** `toggleImportant`. */
  function ToggleImportant(s: Service, id: string, isImportant: bool, net: Net): (o: Outcome<()>)
    ensures o.calls == if Truthy(s.accessToken) then [ModifyCall(id, ImportantChange(isImportant))] else []
    ensures o.result.Ok? <==> Truthy(s.accessToken) && Succeeds(net.mutation(ModifyCall(id, ImportantChange(isImportant))))
    ensures o.result.Ok? ==> InvalidatedOnly(s, o.state, id)
    ensures o.result.Err? ==> o.state == s
  {
    Mutate(s, id, ModifyCall(id, ImportantChange(isImportant)), net)
  }

  /** `toggleRead`. */
  function ToggleRead(s: Service, id: string, isRead: bool, net: Net): (o: Outcome<()>)
    ensures o.calls == if Truthy(s.accessToken) then [ModifyCall(id, ReadChange(isRead))] else []
    ensures o.result.Ok? <==> Truthy(s.accessToken) && Succeeds(net.mutation(ModifyCall(id, ReadChange(isRead))))
    ensures o.result.Ok? ==> InvalidatedOnly(s, o.state, id)
    ensures o.result.Err? ==> o.state == s
  {
    Mutate(s, id, ModifyCall(id, ReadChange(isRead)), net)
  }

  /** `deleteEmail`: moves the message to the trash. */
  function DeleteEmail(s: Service, id: string, net: Net): (o: Outcome<()>)
    ensures o.calls == if Truthy(s.accessToken) then [TrashMessage(id)] else []
    ensures o.result.Ok? <==> Truthy(s.accessToken) && Succeeds(net.mutation(TrashMessage(id)))
    ensures o.result.Ok? ==> InvalidatedOnly(s, o.state, id)
    ensures o.result.Err? ==> o.state == s
  {
    Mutate(s, id, TrashMessage(id), net)
  }

  /** The new state, the body text, and the requests issued. */
  datatype Content = Content(state: Service, text: string, calls: seq<Call>)

  /** A decoded body, or the error text when the decoding threw. */
  function TextOrError(decoded: Option<string>): string
  {
    if decoded.Some? then decoded.value else ContentError
  }

  /** `getEmailContent`: never throws. A usable cached entry is decoded with no
      request; otherwise the full message is fetched and cached as the raw
      provider message, without parsed headers, before it is decoded. Any
      failure gives the fixed error text. */
  function GetEmailContent(s: Service, id: string, now: nat, net: Net,
                           unwrap: string -> Option<string>): (c: Content)
    ensures c.text != ""
    ensures c.state.accessToken == s.accessToken && c.state.messageListCache == s.messageListCache
    ensures FreshEntry(s, id, now) ==>
      && c.state == s && c.calls == []
      && c.text == TextOrError(DecodeMessageBody(s.emailsCache[id].data.message, unwrap))
    ensures !FreshEntry(s, id, now) ==>
      c.calls == if Truthy(s.accessToken) then [GetFullMessage(id)] else []
    ensures !FreshEntry(s, id, now) && !(Truthy(s.accessToken) && Succeeds(net.message(GetFullMessage(id)))) ==>
      c.state == s && c.text == ContentError
    ensures !FreshEntry(s, id, now) && Truthy(s.accessToken) && Succeeds(net.message(GetFullMessage(id))) ==>
      var m := net.message(GetFullMessage(id)).json.value;
      && c.state == s.(emailsCache := s.emailsCache[id := Stamped(Email(m, None), now)])
      && c.text == TextOrError(DecodeMessageBody(m, unwrap))
  {
    if FreshEntry(s, id, now) then
      Content(s, TextOrError(DecodeMessageBody(s.emailsCache[id].data.message, unwrap)), [])
    else
      var f := FetchWithAuth(s.accessToken, GetFullMessage(id), net.message(GetFullMessage(id)));
      match f.result
      case Err(_) => Content(s, ContentError, f.calls)
      case Ok(m) =>
        Content(s.(emailsCache := s.emailsCache[id := Stamped(Email(m, None), now)]),
                TextOrError(DecodeMessageBody(m, unwrap)), f.calls)
  }

  /** The verdict of the token probe and the requests it issued. */
  datatype Probe = Probe(valid: bool, calls: seq<Call>)

  /** The ids of the probe's one-item listing; a missing array counts as empty. */
  function ProbeIds(net: Net): seq<string>
    requires Succeeds(net.list(ProbeListSize))
  {
    match net.list(ProbeListSize).json.value.messages
    case None => []
    case Some(ids) => ids
  }

  /** The probe's requests after the profile: the listing once the profile
      succeeded, then the first listed message once the listing succeeded
      with at least one id. */
  function ProbeTail(net: Net): seq<Call>
  {
    if !Succeeds(net.profile) then []
    else if Succeeds(net.list(ProbeListSize)) && |ProbeIds(net)| > 0 then
      [ListMessages(ProbeListSize), GetMessage(ProbeIds(net)[0])]
    else [ListMessages(ProbeListSize)]
  }

  /** `validateToken`: never throws and changes no state. With a token it
      fetches the profile, then a one-item listing, then, if the mailbox is not
      empty, the first listed message; the token is valid when every request
      made succeeds. */
  function ValidateToken(s: Service, net: Net): (p: Probe)
    ensures !Truthy(s.accessToken) ==> p == Probe(false, [])
    ensures p.valid <==>
      && Truthy(s.accessToken)
      && Succeeds(net.profile)
      && Succeeds(net.list(ProbeListSize))
      && (|ProbeIds(net)| > 0 ==> Succeeds(net.message(GetMessage(ProbeIds(net)[0]))))
    ensures Truthy(s.accessToken) ==>
      p.calls == [GetProfile] + ProbeTail(net)
  {
    if !Truthy(s.accessToken) then Probe(false, [])
    else
      var profile := FetchWithAuth(s.accessToken, GetProfile, net.profile);
      if profile.result.Err? then Probe(false, profile.calls)
      else
        var list := FetchWithAuth(s.accessToken, ListMessages(ProbeListSize), net.list(ProbeListSize));
        if list.result.Err? then Probe(false, profile.calls + list.calls)
        else
          var ids := ProbeIds(net);
          if |ids| > 0 then
            var detail := FetchWithAuth(s.accessToken, GetMessage(ids[0]), net.message(GetMessage(ids[0])));
            Probe(detail.result.Ok?, profile.calls + list.calls + detail.calls)
          else Probe(true, profile.calls + list.calls)
  }
}

=== FILE: gmail_properties.dfy ===
/** Properties of the access layer that relate several operations. */
module GmailProperties {
  import opened Base
  import opened Messages
  import opened Remote
  import opened Gmail

  /** Setting the held token again changes nothing, caches included. */
  lemma SameTokenKeepsCache(s: Service, t: string)
    ensures SetAccessToken(SetAccessToken(s, t), t) == SetAccessToken(s, t)
  {
  }

  /** Switching to a different token leaves both caches empty, whatever was
      cached under the first one. */
  lemma NewTokenClearsCache(s: Service, t1: string, t2: string)
    requires t1 != t2
    ensures SetAccessToken(SetAccessToken(s, t1), t2).emailsCache == map[]
    ensures SetAccessToken(SetAccessToken(s, t1), t2).messageListCache.None?
  {
  }

  /** A message read twice within the expiry is fetched once: the second read
      returns the identical value, issues no request and changes nothing. */
  lemma SecondReadHitsCache(s: Service, id: string, t1: nat, t2: nat, net: Net)
    requires !FreshEntry(s, id, t1)
    requires GetEmail(s, id, t1, net).result.Ok?
    requires t2 < t1 + CacheExpiryMs
    ensures GetEmail(s, id, t1, net).calls == [GetMessage(id)]
    ensures
      var first := GetEmail(s, id, t1, net);
      GetEmail(first.state, id, t2, net) == Outcome(first.state, first.result, [])
  {
    var first := GetEmail(s, id, t1, net);
    assert first.state.emailsCache[id] == Stamped(first.result.value, t1);
    assert FreshEntry(first.state, id, t2);
  }

  /** After a successful label change the next read of that message fetches it
      again, while a read of any other message sees the cache as before. */
  lemma MutationForcesRefetch(s: Service, id: string, other: string,
                                                 important: bool, now: nat, net: Net)
    requires ToggleImportant(s, id, important, net).result.Ok?
    requires other != id
    ensures
      var after := ToggleImportant(s, id, important, net).state;
      && GetEmail(after, id, now, net).calls == [GetMessage(id)]
      && (FreshEntry(s, other, now) <==> FreshEntry(after, other, now))
      && (FreshEntry(s, other, now) ==> GetEmail(after, other, now, net).result == GetEmail(s, other, now, net).result)
  {
    var after := ToggleImportant(s, id, important, net).state;
    assert InvalidatedOnly(s, after, id);
    assert !FreshEntry(after, id, now);
    assert Truthy(after.accessToken);
  }

  /** The add and remove lists of every label change are disjoint, and the two
      settings of a flag send each other's lists. */
  lemma LabelChangesComplementary(flag: bool)
    ensures forall l :: l in ImportantChange(flag).add ==> l !in ImportantChange(flag).remove
    ensures forall l :: l in ReadChange(flag).add ==> l !in ReadChange(flag).remove
    ensures ImportantChange(flag).add == ImportantChange(!flag).remove
    ensures ReadChange(flag).add == ReadChange(!flag).remove
    ensures ImportantChange(true).add == [Important] && ReadChange(false).add == [Unread]
  {
  }

  /** A listing served within the expiry of a fetched one is that same listing,
      with no request, whatever page, page size or `useCache` is passed. */
  lemma SecondListingHitsCache(
    s: Service, t1: nat, t2: nat, net: Net,
    size1: Option<int>, page1: Option<int>, cache1: bool,
    size2: Option<int>, page2: Option<int>, cache2: bool)
    requires !FreshList(s, t1)
    requires ListEmails(s, size1, page1, cache1, t1, net).result.Ok?
    requires t2 < t1 + CacheExpiryMs
    ensures
      var first := ListEmails(s, size1, page1, cache1, t1, net);
      ListEmails(first.state, size2, page2, cache2, t2, net) == Outcome(first.state, first.result, [])
  {
    var first := ListEmails(s, size1, page1, cache1, t1, net);
    assert first.state.messageListCache == Some(Stamped(first.result.value, t1));
    assert FreshList(first.state, t2);
  }

  /** A listing fetched from the provider leaves a usable entry for every
      listed message whose own read succeeded, even when another listed read
      failed, so reading it right after issues no request. */
  lemma ListingFillsMessageCache(s: Service, size: Option<int>, page: Option<int>,
                                                    useCache: bool, now: nat, net: Net, i: nat)
    requires !FreshList(s, now) && Truthy(s.accessToken)
    requires ListedIds(net).Some? && i < |ListedIds(net).value|
    requires
      var id := ListedIds(net).value[i];
      FreshEntry(s, id, now) || Succeeds(net.message(GetMessage(id)))
    ensures
      var after := ListEmails(s, size, page, useCache, now, net).state;
      var id := ListedIds(net).value[i];
      FreshEntry(after, id, now) && GetEmail(after, id, now, net).calls == []
  {
    var ids := ListedIds(net).value;
    var id := ids[i];
    var o := ListEmails(s, size, page, useCache, now, net);
    assert o.state.emailsCache == StoreFetched(s, ids, now, net);
    if FreshEntry(s, id, now) {
      assert o.state.emailsCache[id] == s.emailsCache[id];
    } else {
      assert Fetches(s, id, now, net);
      assert o.state.emailsCache[id].timestamp == now;
    }
  }

  /** A body read stores the raw provider message, and a message read served
      from that entry has no parsed headers, although every fetched message
      read has them. */
  lemma ContentEntryLacksHeaders(s: Service, id: string, t1: nat, t2: nat,
                                                    net: Net, unwrap: string -> Option<string>)
    requires !FreshEntry(s, id, t1)
    requires Truthy(s.accessToken) && Succeeds(net.message(GetFullMessage(id)))
    requires t2 < t1 + CacheExpiryMs
    ensures
      var after := GetEmailContent(s, id, t1, net, unwrap).state;
      && GetEmail(after, id, t2, net).result == Ok(Email(net.message(GetFullMessage(id)).json.value, None))
      && GetEmail(after, id, t2, net).calls == []
    ensures GetEmail(s, id, t1, net).result.Ok? ==> GetEmail(s, id, t1, net).result.value.headers.Some?
  {
    var after := GetEmailContent(s, id, t1, net, unwrap).state;
    assert FreshEntry(after, id, t2);
  }
}

=== FILE: messages.dfy ===
/** The provider's message shape and the service's decorated copy of it. */
module Messages {
  import opened Base

  datatype Header = Header(name: string, value: string)

  /** A base64url-encoded body; `data` may be missing. */
  datatype Body = Body(data: Option<string>)

  datatype Part = Part(mimeType: string, body: Body)

  datatype Payload = Payload(
    headers: Option<seq<Header>>,
    body: Option<Body>,
    parts: Option<seq<Part>>)

  /** A message as the mail provider returns it. */
  datatype Message = Message(
    id: string,
    threadId: string,
    labelIds: Option<seq<string>>,
    snippet: Option<string>,
    payload: Option<Payload>,
    internalDate: Option<string>)

  /** Lower-cased header name to its values. */
  type HeaderMap = map<string, seq<string>>

  /** What the service hands out and caches: the provider's message with a
      `headers` field that is present when the service parsed the headers. */
  datatype Email = Email(message: Message, headers: Option<HeaderMap>)

  /** `message.payload?.headers`, with a missing array read as empty. */
  function HeadersOf(m: Message): (hs: seq<Header>)
    ensures m.payload.None? || m.payload.value.headers.None? ==> hs == []
    ensures m.payload.Some? && m.payload.value.headers.Some? ==> hs == m.payload.value.headers.value
  {
    match m.payload
    case None => []
    case Some(p) => match p.headers case None => [] case Some(hs) => hs
  }
}

=== FILE: middleware.dfy ===
/** The request gate: which paths the middleware runs on, and which of those
    a request without a session token may reach. */
module Middleware {
  import opened Text

  /** The parts of the request URL the gate reads or keeps. */
  datatype Url = Url(origin: string, pathname: string, search: string, hash: string)

  datatype Decision = Next | RedirectTo(url: Url)

  const SignInPath := "/auth"

  /** `publicPaths.some(p => path.startsWith(p))`: a prefix test, so "/authx"
      is public too. */
  predicate IsPublic(path: string)
  {
    StartsWith(path, "/auth") || StartsWith(path, "/api/auth")
  }

  /** `middleware`: without a token, a non-public path is redirected to a copy
      of the URL whose path is the sign-in page; everything else passes. */
  function Gate(hasToken: bool, url: Url): (d: Decision)
    ensures hasToken ==> d == Next
    ensures d.RedirectTo? <==> !hasToken && !IsPublic(url.pathname)
    ensures d.RedirectTo? ==> d.url == url.(pathname := SignInPath)
  {
    if !hasToken && !IsPublic(url.pathname) then RedirectTo(url.(pathname := SignInPath)) else Next
  }

  /** The sign-in page a redirect leads to passes the gate: no redirect loop. */
  lemma RedirectTargetPasses(url: Url)
    ensures Gate(false, url).RedirectTo? ==> Gate(false, Gate(false, url).url) == Next
  {
    assert StartsWith(SignInPath, "/auth");
  }

  /** Prefix matching admits look-alike paths. */
  lemma PublicByPrefix()
    ensures IsPublic("/authx") && IsPublic("/api/auth/callback") && IsPublic("/auth")
    ensures !IsPublic("/dashboard") && !IsPublic("/api/emails") && !IsPublic("/")
  {
    assert "/authx"[..5] == "/auth";
    assert "/api/auth/callback"[..9] == "/api/auth";
    assert "/dashboard"[1] != "/auth"[1] && "/dashboard"[1] != "/api/auth"[1];
    assert "/api/emails"[2] != "/auth"[2] && "/api/emails"[5] != "/api/auth"[5];
  }

  /** Characters the regular expression `.` does not match. */
  predicate IsLineTerminator(c: char)
  {
    c == '\n' || c == '\r' || c == '\U{2028}' || c == '\U{2029}'
  }

  /** `rest` begins with a match of the literal pattern `pat`, in which `.` is
      the regular-expression wildcard. */
  predicate PatternPrefix(rest: string, pat: string)
  {
    |pat| <= |rest| &&
    forall i :: 0 <= i < |pat| ==>
      if pat[i] == '.' then !IsLineTerminator(rest[i]) else rest[i] == pat[i]
  }

  const ExcludedPatterns := ["_next/static", "_next/image", "favicon.ico", "public/"]

  /** `config.matcher`, `/((?!_next/static|_next/image|favicon.ico|public/).*)`:
      the middleware runs on a path unless what follows its leading slash
      begins with one of the excluded patterns. The dot of `favicon.ico` is a
      wildcard, so "/favicon-ico" is excluded too. Line terminators in a path
      are not modelled. */
  function Matches(path: string): (r: bool)
    ensures r ==> |path| >= 1 && path[0] == '/'
    ensures |path| >= 1 && path[0] == '/' ==>
      (r <==> forall k :: 0 <= k < |ExcludedPatterns| ==> !PatternPrefix(path[1..], ExcludedPatterns[k]))
  {
    assert ExcludedPatterns[0] == "_next/static" && ExcludedPatterns[1] == "_next/image";
    assert ExcludedPatterns[2] == "favicon.ico" && ExcludedPatterns[3] == "public/";
    |path| >= 1 && path[0] == '/' && !(
      || PatternPrefix(path[1..], "_next/static")
      || PatternPrefix(path[1..], "_next/image")
      || PatternPrefix(path[1..], "favicon.ico")
      || PatternPrefix(path[1..], "public/"))
  }

  /** A request as the framework handles it: the gate runs only on matched paths. */
  function Handle(hasToken: bool, url: Url): (d: Decision)
    ensures !Matches(url.pathname) ==> d == Next
    ensures Matches(url.pathname) ==> d == Gate(hasToken, url)
  {
    if Matches(url.pathname) then Gate(hasToken, url) else Next
  }

  /** One differing literal character rules a pattern out. */
  lemma MismatchAt(rest: string, pat: string, i: nat)
    requires i < |pat| && i < |rest|
    requires pat[i] != '.' && rest[i] != pat[i]
    ensures !PatternPrefix(rest, pat)
  {
  }

  /** Static chunks, images, the favicon and public files are never gated,
      the favicon look-alike included. */
  lemma StaticPathsSkipped()
    ensures !Matches("/_next/static/chunk.js") && !Matches("/_next/image")
    ensures !Matches("/favicon.ico") && !Matches("/favicon-ico") && !Matches("/public/logo.png")
  {
    assert PatternPrefix("/_next/static/chunk.js"[1..], "_next/static");
    assert PatternPrefix("/_next/image"[1..], "_next/image");
    assert PatternPrefix("/favicon.ico"[1..], "favicon.ico");
    assert PatternPrefix("/favicon-ico"[1..], "favicon.ico");
    assert PatternPrefix("/public/logo.png"[1..], "public/");
  }

  /** Application pages and API routes are gated, including a path that only
      begins like the public directory. */
  lemma PagesGated()
    ensures Matches("/dashboard") && Matches("/publicity") && Matches("/api/emails")
  {
    var d := "/dashboard"[1..];
    MismatchAt(d, "_next/static", 0);
    MismatchAt(d, "_next/image", 0);
    MismatchAt(d, "favicon.ico", 0);
    MismatchAt(d, "public/", 0);
    var p := "/publicity"[1..];
    MismatchAt(p, "_next/static", 0);
    MismatchAt(p, "_next/image", 0);
    MismatchAt(p, "favicon.ico", 0);
    MismatchAt(p, "public/", 6);
    var a := "/api/emails"[1..];
    MismatchAt(a, "_next/static", 0);
    MismatchAt(a, "_next/image", 0);
    MismatchAt(a, "favicon.ico", 0);
    MismatchAt(a, "public/", 0);
  }
}

=== FILE: remote.dfy ===
/** The authenticated request wrapper: the requests the service issues, how
    the network may answer them, and how a failed answer becomes an error
    message. */
module Remote {
  import opened Base
  import opened Text
  import opened Messages

  /** A request to the mail provider. */
  datatype Call =
    | GetProfile
    | ListMessages(maxResults: nat)
    | GetMessage(id: string)
    | GetFullMessage(id: string)
    | ModifyLabels(id: string, addLabelIds: seq<string>, removeLabelIds: seq<string>)
    | TrashMessage(id: string)

  /** How the network answered one request: `fetch` rejected with a message,
      or a response with its status, status text, body text, and the body read
      as JSON (`Err` when reading it throws). */
  datatype Reply<T> =
    | NetworkError(reason: string)
    | Response(status: nat, statusText: string, text: string, json: Result<T, string>)

  /** The body of a message-list response; `None` when `messages` is missing
      or not an array. */
  datatype IdList = IdList(messages: Option<seq<string>>)

  /** The network's answer to each request the service can issue. */
  datatype Net = Net(
    profile: Reply<()>,
    list: nat -> Reply<IdList>,
    message: Call -> Reply<Message>,
    mutation: Call -> Reply<()>)

  /** `response.ok`. */
  predicate IsOk(status: nat)
  {
    200 <= status <= 299
  }

  /** The reply completes a request: an ok status whose body reads as JSON. */
  predicate Succeeds<T>(reply: Reply<T>)
  {
    reply.Response? && IsOk(reply.status) && reply.json.Ok?
  }


  const NoTokenMessage := "No access token"
  const ErrorHead := "Gmail API error"
  const ForbiddenPrefix :=
    ErrorHead + " (403): " + "Access forbidden. " + "Please check your permissions. " + "Raw response: "
  const RateLimitMessage := "Gmail API rate limit exceeded. Try again later."
  const StatusPrefix := ErrorHead + ": "
  const RawResponseLimit := 200

  /** The classes of failed responses. */
  datatype Failure =
    | Forbidden(raw: string)
    | RateLimited
    | HttpError(status: nat, statusText: string)

  /** How a non-ok response is classified. For 403 the source parses the body
      as JSON and throws an access-denied error inside the same try block
      whose catch turns every error into the raw-response one, so each 403 is
      `Forbidden` with the first 200 characters of the body, parseable or not. */
  function Classify(status: nat, statusText: string, text: string): (f: Failure)
    ensures f.Forbidden? <==> status == 403
    ensures f.Forbidden? ==>
      |f.raw| == (if |text| < RawResponseLimit then |text| else RawResponseLimit)
      && StartsWith(text, f.raw)
    ensures f.RateLimited? <==> status == 429
    ensures f.HttpError? ==> f.status == status && f.statusText == statusText
  {
    if status == 403 then Forbidden(Take(text, RawResponseLimit))
    else if status == 429 then RateLimited
    else HttpError(status, statusText)
  }

  /** The message of the error thrown for a failure. */
  function Render(f: Failure): string
  {
    match f
    case Forbidden(raw) => ForbiddenPrefix + raw
    case RateLimited => RateLimitMessage
    case HttpError(status, statusText) => StatusPrefix + NatToString(status) + " " + statusText
  }

  /** The message of the error `fetchWithAuth` throws for a non-ok response. */
  function ErrorMessage(status: nat, statusText: string, text: string): (m: string)
    ensures Recognize(m) == Some(Classify(status, statusText, text))
    ensures status == 403 <==> StartsWith(m, ForbiddenPrefix)
    ensures status == 429 <==> m == RateLimitMessage
  {
    RecognizeRender(Classify(status, statusText, text));
    Render(Classify(status, statusText, text))
  }

  /** Reads the failure class back from an error message. */
  function Recognize(msg: string): Option<Failure>
  {
    if StartsWith(msg, ForbiddenPrefix) then Some(Forbidden(msg[|ForbiddenPrefix|..]))
    else if msg == RateLimitMessage then Some(RateLimited)
    else if StartsWith(msg, StatusPrefix) then
      var rest := msg[|StatusPrefix|..];
      var d := RunEnd(rest, 0, Digit);
      if d == 0 || d == |rest| || rest[d] != ' ' then None
      else Some(HttpError(DigitsValue(rest[..d]), rest[d + 1..]))
    else None
  }

  /** Every error message names its failure class, and an HTTP error names its
      status and status text: reading the message back recovers the failure. */
  lemma RecognizeRender(f: Failure)
    ensures Recognize(Render(f)) == Some(f)
  {
    match f
    case Forbidden(raw) => RecognizeForbidden(raw);
    case RateLimited => assert !StartsWith(RateLimitMessage, ForbiddenPrefix);
    case HttpError(status, statusText) => RecognizeHttpError(status, statusText);
  }

  lemma RecognizeForbidden(raw: string)
    ensures Recognize(ForbiddenPrefix + raw) == Some(Forbidden(raw))
  {
    var msg := ForbiddenPrefix + raw;
    assert msg[..|ForbiddenPrefix|] == ForbiddenPrefix;
    assert msg[|ForbiddenPrefix|..] == raw;
  }

  lemma RecognizeHttpError(status: nat, statusText: string)
    ensures Recognize(Render(HttpError(status, statusText))) == Some(HttpError(status, statusText))
  {
    var digits := NatToString(status);
    var msg := StatusPrefix + digits + " " + statusText;
    var rest := digits + (" " + statusText);
    StatusMessageShape(digits, statusText);
    RunOfDigits(digits, " " + statusText);
    assert rest[..|digits|] == digits;
    assert rest[|digits| + 1..] == statusText;
    DecimalRoundTrip(status);
  }

  /** An HTTP error message is neither of the other two kinds, and what follows
      its prefix is the status digits, a space and the status text. */
  lemma StatusMessageShape(digits: string, statusText: string)
    ensures
      var msg := StatusPrefix + digits + " " + statusText;
      && !StartsWith(msg, ForbiddenPrefix) && msg != RateLimitMessage
      && StartsWith(msg, StatusPrefix)
      && msg[|StatusPrefix|..] == digits + (" " + statusText)
  {
    var msg := StatusPrefix + digits + " " + statusText;
    assert msg[|ErrorHead|] == ':' && ForbiddenPrefix[|ErrorHead|] == ' ';
    assert msg[10] != RateLimitMessage[10];
    assert msg[..|StatusPrefix|] == StatusPrefix;
    assert msg[|StatusPrefix|..] == digits + (" " + statusText);
  }

  /** The digit run at the start of `digits + rest` is `digits` when `rest`
      does not start with a digit. */
  lemma RunOfDigits(digits: string, rest: string)
    requires AllDigits(digits)
    requires rest != [] && !IsDigit(rest[0])
    ensures RunEnd(digits + rest, 0, Digit) == |digits|
  {
    var s := digits + rest;
    assert forall k :: 0 <= k < |digits| ==> s[k] == digits[k];
    RunEndAt(s, 0, |digits|, Digit);
  }

  /** The three classes of failed responses give three different messages,
      and an HTTP error's message determines its status. */
  lemma ErrorMessagesDistinguish(s1: nat, t1: string, b1: string, s2: nat, t2: string, b2: string)
    requires !IsOk(s1) && !IsOk(s2)
    requires ErrorMessage(s1, t1, b1) == ErrorMessage(s2, t2, b2)
    ensures s1 == 403 <==> s2 == 403
    ensures s1 == 429 <==> s2 == 429
    ensures s1 != 403 && s1 != 429 ==> s1 == s2 && t1 == t2
  {
    RecognizeRender(Classify(s1, t1, b1));
    RecognizeRender(Classify(s2, t2, b2));
  }

  /** What `fetchWithAuth` yields and which requests it issued. */
  datatype Fetched<T> = Fetched(result: Result<T, string>, calls: seq<Call>)

  /** `fetchWithAuth`: without a token it throws before any request; otherwise
      it issues `call` and yields the JSON body of an ok response, the
      classified error of a non-ok one, or the error of a rejected request or
      unreadable body. */
  function FetchWithAuth<T>(token: Option<string>, call: Call, reply: Reply<T>): (f: Fetched<T>)
    ensures !Truthy(token) ==> f == Fetched(Err(NoTokenMessage), [])
    ensures Truthy(token) ==> f.calls == [call]
    ensures f.result.Ok? <==> Truthy(token) && Succeeds(reply)
    ensures f.result.Ok? ==> f.result.value == reply.json.value
    ensures Truthy(token) && reply.Response? && !IsOk(reply.status) ==>
      f.result == Err(ErrorMessage(reply.status, reply.statusText, reply.text))
    ensures Truthy(token) && reply.NetworkError? ==> f.result == Err(reply.reason)
  {
    if !Truthy(token) then Fetched(Err(NoTokenMessage), [])
    else
      match reply
      case NetworkError(reason) => Fetched(Err(reason), [call])
      case Response(status, statusText, text, json) =>
        if !IsOk(status) then Fetched(Err(ErrorMessage(status, statusText, text)), [call])
        else Fetched(json, [call])
  }
}

=== FILE: text.dfy ===
/** Character classes, prefixes, ASCII case folding and decimal numbers. */
module Text {
  import opened Base

  predicate IsDigit(c: char) { '0' <= c <= '9' }
  predicate IsUpper(c: char) { 'A' <= c <= 'Z' }
  predicate IsLower(c: char) { 'a' <= c <= 'z' }
  predicate IsAlpha(c: char) { IsUpper(c) || IsLower(c) }

  predicate StartsWith(s: string, p: string)
  {
    |p| <= |s| && s[..|p|] == p
  }

  /** `s.substring(0, n)`: the first `n` characters, or all of `s` if it is shorter. */
  function Take(s: string, n: nat): (r: string)
    ensures |r| == if |s| < n then |s| else n
    ensures StartsWith(s, r)
  {
    if |s| <= n then s else s[..n]
  }

  /** Lower-cases one ASCII letter; every other character is kept. */
  function LowerChar(c: char): (r: char)
    ensures !IsUpper(r)
    ensures IsAlpha(c) <==> IsAlpha(r)
    ensures !IsUpper(c) ==> r == c
    ensures IsUpper(c) ==> r as int == c as int + 32
  {
    if IsUpper(c) then (c as int + 32) as char else c
  }

  /** `s.toLowerCase()` restricted to ASCII letters. */
  function ToLower(s: string): (r: string)
    ensures |r| == |s|
    ensures forall i :: 0 <= i < |s| ==> r[i] == LowerChar(s[i])
    ensures forall i :: 0 <= i < |r| ==> !IsUpper(r[i])
  {
    seq(|s|, i requires 0 <= i < |s| => LowerChar(s[i]))
  }

  /** Lower-casing twice is lower-casing once. */
  lemma ToLowerIdempotent(s: string)
    ensures ToLower(ToLower(s)) == ToLower(s)
  {
  }

  predicate AllDigits(s: string)
  {
    forall i :: 0 <= i < |s| ==> IsDigit(s[i])
  }

  function DigitValue(c: char): nat
    requires IsDigit(c)
  {
    c as int - '0' as int
  }

  function DigitChar(d: nat): (c: char)
    requires d < 10
    ensures IsDigit(c) && DigitValue(c) == d
  {
    ('0' as int + d) as char
  }

  /** The decimal text of a number, as JavaScript writes an integer status code. */
  function NatToString(n: nat): (r: string)
    ensures |r| >= 1 && AllDigits(r)
    ensures (r[0] == '0') <==> n == 0
    ensures n < 10 <==> |r| == 1
    decreases n
  {
    if n < 10 then [DigitChar(n)] else NatToString(n / 10) + [DigitChar(n % 10)]
  }

  /** The number a string of decimal digits denotes. */
  function DigitsValue(s: string): nat
    requires AllDigits(s)
    decreases |s|
  {
    if s == [] then 0 else DigitsValue(s[..|s| - 1]) * 10 + DigitValue(s[|s| - 1])
  }

  /** Reading back the decimal text of a number gives the number. */
  lemma {:induction false} DecimalRoundTrip(n: nat)
    ensures DigitsValue(NatToString(n)) == n
  {
    if n >= 10 {
      DecimalRoundTrip(n / 10);
      var s := NatToString(n / 10) + [DigitChar(n % 10)];
      assert s[..|s| - 1] == NatToString(n / 10);
    }
  }

  /** Different numbers have different decimal texts. */
  lemma DecimalInjective(m: nat, n: nat)
    requires NatToString(m) == NatToString(n)
    ensures m == n
  {
    DecimalRoundTrip(m);
    DecimalRoundTrip(n);
  }

  /** The characters of an e-mail address's local part, `[a-zA-Z0-9._%+-]`. */
  predicate IsLocalChar(c: char)
  {
    IsAlpha(c) || IsDigit(c) || c == '.' || c == '_' || c == '%' || c == '+' || c == '-'
  }

  /** The characters of an e-mail address's domain, `[a-zA-Z0-9.-]`. */
  predicate IsDomainChar(c: char)
  {
    IsAlpha(c) || IsDigit(c) || c == '.' || c == '-'
  }

  /** The character classes whose runs the scanners measure. */
  datatype CharClass = Space | Digit | Letter | LocalPart | DomainPart

  predicate InClass(c: char, cls: CharClass)
  {
    match cls
    case Space => IsSpace(c)
    case Digit => IsDigit(c)
    case Letter => IsAlpha(c)
    case LocalPart => IsLocalChar(c)
    case DomainPart => IsDomainChar(c)
  }

  /** End of the longest run of characters of class `cls` that starts at `i`. */
  function RunEnd(s: string, i: nat, cls: CharClass): (j: nat)
    requires i <= |s|
    ensures i <= j <= |s|
    ensures forall k :: i <= k < j ==> InClass(s[k], cls)
    ensures j < |s| ==> !InClass(s[j], cls)
    decreases |s| - i
  {
    if i == |s| || !InClass(s[i], cls) then i else RunEnd(s, i + 1, cls)
  }

  /** A run ends at the first position whose character is outside the class. */
  lemma RunEndAt(s: string, i: nat, j: nat, cls: CharClass)
    requires i <= j < |s|
    requires forall k :: i <= k < j ==> InClass(s[k], cls)
    requires !InClass(s[j], cls)
    ensures RunEnd(s, i, cls) == j
  {
  }

  /** A run that reaches the end of the text ends there. */
  lemma RunEndAll(s: string, i: nat, cls: CharClass)
    requires i <= |s|
    requires forall k :: i <= k < |s| ==> InClass(s[k], cls)
    ensures RunEnd(s, i, cls) == |s|
  {
  }

  /** The ASCII white space `parseInt` skips before the number. */
  predicate IsSpace(c: char)
  {
    c == ' ' || c == '\t' || c == '\n' || c == '\r' || c == '\U{000B}' || c == '\U{000C}'
  }

  /** The value of the digits at the start of `u`; `None` when there are none. */
  function ReadUnsigned(u: string): (r: Option<nat>)
    ensures r.None? <==> u == [] || !IsDigit(u[0])
  {
    var d := u[..RunEnd(u, 0, Digit)];
    if d == [] then None else Some(DigitsValue(d))
  }

  /** An optional sign followed by digits. */
  function ReadSigned(t: string): (r: Option<int>)
    ensures r.None? <==>
      var u := if |t| > 0 && (t[0] == '-' || t[0] == '+') then t[1..] else t;
      u == [] || !IsDigit(u[0])
  {
    if |t| > 0 && t[0] == '-' then
      match ReadUnsigned(t[1..])
      case None => None
      case Some(v) => Some(-(v as int))
    else if |t| > 0 && t[0] == '+' then
      match ReadUnsigned(t[1..])
      case None => None
      case Some(v) => Some(v)
    else
      match ReadUnsigned(t)
      case None => None
      case Some(v) => Some(v)
  }

  /** JavaScript `parseInt(s)` on decimal text: leading white space is skipped,
      an optional sign is read, then the longest run of digits; `None` is NaN. */
  function ParseInt(s: string): (r: Option<int>)
    ensures
      var j := RunEnd(s, 0, Space);
      var k := if j < |s| && (s[j] == '-' || s[j] == '+') then j + 1 else j;
      && (r.None? <==> k == |s| || !IsDigit(s[k]))
      && (r.Some? && r.value < 0 ==> s[j] == '-')
  {
    ReadSigned(s[RunEnd(s, 0, Space)..])
  }

  /** The decimal text of a number is read whole, as that number. */
  lemma ReadUnsignedDecimal(n: nat)
    ensures ReadUnsigned(NatToString(n)) == Some(n)
  {
    var s := NatToString(n);
    RunEndAll(s, 0, Digit);
    assert s[..|s|] == s;
    DecimalRoundTrip(n);
  }

  /** Text that starts with something other than white space is read from its start. */
  lemma NoLeadingSpace(t: string)
    requires |t| >= 1 && !IsSpace(t[0])
    ensures ParseInt(t) == ReadSigned(t)
  {
    RunEndAt(t, 0, 0, Space);
    assert t[0..] == t;
  }

  /** Text that starts with a digit has no sign to read. */
  lemma ReadSignedUnsigned(t: string)
    requires |t| >= 1 && IsDigit(t[0])
    ensures ReadSigned(t) == ReadUnsigned(t)
  {
  }

  /** A minus sign negates the digits that follow it. */
  lemma ReadSignedMinus(s: string)
    requires ReadUnsigned(s).Some?
    ensures ReadSigned("-" + s) == Some(-(ReadUnsigned(s).value as int))
  {
    assert ("-" + s)[1..] == s;
  }

  /** `parseInt` reads back the decimal text of any number. */
  lemma ParseIntRoundTrip(n: nat)
    ensures ParseInt(NatToString(n)) == Some(n)
    ensures ParseInt("-" + NatToString(n)) == Some(-(n as int))
  {
    var s := NatToString(n);
    ReadUnsignedDecimal(n);
    NoLeadingSpace(s);
    ReadSignedUnsigned(s);
    var m := "-" + s;
    assert m[0] == '-';
    NoLeadingSpace(m);
    ReadSignedMinus(s);
  }
}
